=== FILE: README.md ===
# Terrain-aware placement of the achievement garden

The home page of the garden draws every achievement as a picture on a
landscape of four mountain ranges: ground achievements become trees standing on
the foreground hill, sky achievements become stars above it. This project
models the core that decides where those pictures go, and proves what that core
guarantees:

- **terrain queries**: two generations of them, `src/core/terrain/bounds.ts`
  (module `Bounds`) and the older `src/pages/Home/utils/terrain.ts` (module
  `LegacyTerrain`). They cover:
  - scaling the ranges to the viewport;
  - sky/ground detection;
  - the per-column contour scans;
  - the sky band;
  - the sky check;
  - sky heights and the perspective scale.
- **the position engine** `src/core/terrain/TerrainEngine.ts` (module
  `TerrainEngine`). It does rejection sampling with a minimum distance, 200
  tries and a fixed fallback.
- **the terrain grid** `src/hooks/useTerrainGrid.ts` (module `TerrainGrid`). It
  covers:
  - grid creation and classification into sky, contour and ground;
  - the free-cell search over shuffled columns;
  - occupation;
  - the per-column ground cache.
- **the four placement passes**, one per canvas:
  - `FloorElements.tsx` (module `FloorPlacement`);
  - `Floor/CanvasElements.tsx` (module `LegacyFloorPlacement`);
  - `Sky/SkyElements.tsx` (module `SkyPlacement`);
  - `Elements/CanvasElements.tsx` (module `OriginalPlacement`).

  The passes they share live in module `Passes`:
  - even spread;
  - left-to-right minimum spacing;
  - clamping into the band;
  - the overlap nudge.
- **pointer handling** `src/pages/Home/utils/canvasUtils.ts` (module `Picking`):
  client-to-canvas coordinates, and the hit test that picks the topmost
  picture.

## Supporting modules and environment

- `Scene` holds the ranges and their viewport transforms.
- `Records` holds the achievement and placed-record types.
- `Sequences` holds the array `sort`/`filter` the passes use.
- `Common` holds JavaScript's `Math.round` and clamping.

Whatever the code reads from the browser arrives as data:

- The viewport and the 2D-context availability are fields of `Scene.Env`.
- `isPointInPath` on a scaled path is the `Env.inPath` oracle.
- The sine-based generators and `Math.random()` are functions or streams into
  `[0, 1)`.
- The module-level state is passed in and returned as values:
  - `usedSky` and `usedGround` (`TerrainEngine.ts:15-16`);
  - `cachedGroundY` (`useTerrainGrid.ts:152`);
  - `cachedPaths` (`bounds.ts:63`).
- The grid of `useTerrainGrid` is `useMemo` state of the hook
  (`useTerrainGrid.ts:134-149`). It is an ordinary value here, created,
  classified and occupied by pure functions.

Behaviour of the code that a reader might not expect, and how the model
treats it:

- **Vertical jitter on the floor canvas.** `FloorElements.tsx:62` computes a
  vertical jitter `y`, but line 70 stores the contour row `baseY` instead. The
  jitter is never used, so the model's trees stand exactly on the contour
  until the nudge.
- **Dense ground cache fallback.** `useTerrainGrid.ts:171-181` stores, per
  column, the first row inside the hill. That equals `getTopPxForeground`
  wherever the column meets the hill. A column that misses it gets
  `0.12 * h` (line 181), where `getTopPxForeground` answers 0
  (`TerrainGrid.CacheAgreesWithForegroundTop`).
- **Path cache.** `bounds.ts:63-72` fills `cachedPaths` on the first ground
  query and never clears it. After a resize, `isGround` (line 83) still checks
  the old viewport's paths, while `terrain.ts:51` rebuilds them on every call
  (see Findings). `Bounds.IsGroundAsWritten` models the code as written. The
  sky and ground queries the rest of the model builds on
  (`Bounds.IsGround` and everything above it) use the corrected,
  viewport-keyed cache. The two agree until the viewport changes
  (`Bounds.AsWrittenMatchesWhileViewportUnchanged`).
- **Spacing after the clamp.** In `FloorElements.tsx` the spacing loop
  (lines 84-91) runs before the clamp (lines 93-96), so the clamp can pull
  trees at the edge of the band back together: two trees pushed past an edge
  end on the same column. The pipelines state exactly this composition
  (`FloorPlacement.ArrangedRecords` and its counterparts), so the drawn trees
  keep their left-to-right order but not the 20-pixel spacing.

## Model

| member | source | states |
|---|---|---|
| `Scene.CreateScaledPath` | src/core/terrain/bounds.ts:38-61 | The scaled box of a range spans the viewport width, and its bottom edge lands on the viewport's bottom row. The foreground fills the bottom third (rounded) and the backdrop ranges fill the bottom half. |
| `Scene.ScaleAll` | src/core/terrain/bounds.ts:67-69 | One scaled path per range, in range order. |
| `Scene.AnyContains` | src/core/terrain/bounds.ts:85-91 | The "inside any path" loop answers true exactly when some path from the given index on contains the point. |
| `Scene.ScanDown` | src/core/terrain/bounds.ts:129-132 | A downward column scan stops at the first matching row, with nothing matching above it; it reaches the end only when no row matches. |
| `Scene.ScanUp` | src/core/terrain/bounds.ts:122-125 | An upward column scan stops at the lowest matching row, with nothing matching below it; it returns -1 only when no row matches. |
| `Bounds.GetScaledPaths` | src/core/terrain/bounds.ts:63-72 | As written, the cache is filled on the first call with the paths of that viewport. Every later call returns the stored paths. |
| `Bounds.StaleCacheAfterResize` | src/core/terrain/bounds.ts:63-72 | After a resize that changes the width, the cache hands back the old viewport's paths and never the current ones. |
| `Bounds.GetScaledPathsKeyed` | src/core/terrain/bounds.ts:63-72 | The corrected cache always returns the paths of the current viewport and stays valid. It returns itself unchanged when the viewport has not changed. |
| `Bounds.IsGroundAsWritten` | src/core/terrain/bounds.ts:78-92 | Without a 2D context the answer is false and the cache is untouched. Otherwise the point is ground exactly when one of the cached paths contains it, and the cache is filled with the current viewport's paths only if it was empty. |
| `Bounds.AsWrittenMatchesWhileViewportUnchanged` | src/core/terrain/bounds.ts:63-92 | While the cache is empty or still holds the current viewport's paths, the as-written ground test gives the same answer as the corrected one. |
| `Bounds.IsGroundMeaning` | src/core/terrain/bounds.ts:78-92 | With the corrected cache, a point is ground exactly when a 2D context exists and one of the four ranges scaled to the current viewport contains it. The code as written tests the cached paths instead (see `Bounds.IsGroundAsWritten`). |
| `Bounds.ForegroundIsGround` | src/core/terrain/bounds.ts:94-114 | A point inside the foreground range is ground and never sky. |
| `Bounds.GetBottomPx` | src/core/terrain/bounds.ts:120-126 | The answer is the lowest ground row of the column, with no ground row below it. It is `h - 50` only when the column holds no ground at all. |
| `Bounds.GetTopPxForeground` | src/core/terrain/bounds.ts:128-133 | The answer is the first foreground row of the column, with no foreground row above it. It is 0 when the column meets no foreground. |
| `Bounds.GetSkyMaxY` | src/core/terrain/bounds.ts:145-148 | The bottom of the sky band is never negative. It is either 0 or exactly `margin` rows above the foreground contour. |
| `Bounds.SkyBandAboveForeground` | src/core/terrain/bounds.ts:145-148 | With a positive margin, no row of the sky band is inside the foreground, unless the foreground reaches row 0. |
| `Bounds.GetSkyYBounds` | src/core/terrain/bounds.ts:150-157 | The vertical sky bounds run from the requested top row down to the sky band of the column. |
| `Bounds.ViewportWidth` | src/core/terrain/bounds.ts:160 | The width is always positive: the window's width, or 1200 when that is zero. |
| `Bounds.GetSkyXBounds` | src/core/terrain/bounds.ts:159-164 | The band starts at the padding and is at least one pixel wide. It ends `padding` before the viewport edge whenever that leaves room. |
| `Bounds.SkySpotClearOfForeground` | src/core/terrain/bounds.ts:166-175 | An accepted sky spot is never inside the foreground. With a positive margin, the whole column above it is clear of the foreground too. |
| `Bounds.ViewportHeight` | src/core/terrain/bounds.ts:186 | The height is always positive: the window's height, or 800 when that is zero. |
| `Bounds.GetSkyHeightY` | src/core/terrain/bounds.ts:185-188 | The row at a fraction of the height always lies in `[0, h]`. It is the rounded product when that is in range, and it saturates at 0 and at `h`. |
| `Bounds.HeightsOrdered` | src/core/terrain/bounds.ts:185-188 | A smaller fraction never yields a lower row. |
| `Bounds.GetSkyHeightLevelY` | src/core/terrain/bounds.ts:190-194 | Each named level is the row at its own fraction (0.6, 0.4, 0.2). |
| `Bounds.SkyLevelsOrdered` | src/core/terrain/bounds.ts:181-194 | The levels run top to bottom inside the viewport: high, then mid, then low. |
| `Bounds.GetPerspectiveLinesY` | src/core/terrain/bounds.ts:200-205 | There are four perspective rows, one per fraction, running from the bottom of the viewport upwards. |
| `Bounds.SeqMin` | src/core/terrain/bounds.ts:213 | `Math.min(...ys)` is an element of `ys` and no larger than any element. |
| `Bounds.SeqMax` | src/core/terrain/bounds.ts:214 | `Math.max(...ys)` is an element of `ys` and no smaller than any element. |
| `Bounds.Lerp` | src/core/terrain/bounds.ts:217-219 | The clamped linear map stays within `[minScale, maxScale]`. It is `minScale` at or above the top line and `maxScale` at or below the bottom line. |
| `Bounds.GetScaleForY` | src/core/terrain/bounds.ts:207-220 | The scale is the midpoint when the lines coincide. Otherwise it stays within the scale range and is flat beyond the outermost lines. |
| `Bounds.PerspectiveLinesDistinct` | src/core/terrain/bounds.ts:204-215 | For every viewport height the top and bottom perspective lines differ, so the midpoint branch is never taken. |
| `Bounds.FractionOfHeight` | src/core/terrain/bounds.ts:237 | The result is a fraction in `[0, 1]`, and it equals `yPx / h` whenever the row is inside the viewport. |
| `Bounds.GetGroundYPercentAt` | src/core/terrain/bounds.ts:230-237 | The ground height at a fraction of the width is the lowest ground row of that column as a fraction of the height, always in `[0, 1]`. |
| `LegacyTerrain.ScaledPaths` | src/pages/Home/utils/terrain.ts:18-51 | The older file rebuilds the four paths on every query. Each one spans the viewport width and ends on the viewport's bottom row, with the same third/half split. |
| `LegacyTerrain.StaleAnswerAfterResize` | src/pages/Home/utils/terrain.ts:45-61 | After a resize to a different width, the two files can disagree. For a point inside only the old paths, `bounds.ts` with its filled cache answers ground while this file, which rebuilds its paths, answers sky. |
| `LegacyTerrain.GetBottomPx` | src/pages/Home/utils/terrain.ts:105-114 | The lowest ground row of the column, or `h - 50` only when the column holds none. |
| `LegacyTerrain.GetTopPxForeground` | src/pages/Home/utils/terrain.ts:117-125 | The first foreground row of the column, or 0 when there is none. |
| `LegacyTerrain.GetSkyMaxY` | src/pages/Home/utils/terrain.ts:129-133 | Never negative; either 0 or exactly `margin` rows above the contour. |
| `LegacyTerrain.GetSkyYBounds` | src/pages/Home/utils/terrain.ts:136-144 | With this file's defaults, margin 28 and top row 8, the vertical band is the one the current file gives with its own defaults: from row 8 down to 28 rows above the contour, or to row 0. |
| `LegacyTerrain.GetSkyXBounds` | src/pages/Home/utils/terrain.ts:136-152 | With this file's default padding of 0, the band starts at column 0 and ends at the viewport width. |
| `LegacyTerrain.CurrentSkyCheckIsStricter` | src/pages/Home/utils/terrain.ts:155-159 | Every spot the current check accepts, the older one accepts too. They agree from row 60 down, and only the older one can accept above row 60. |
| `LegacyTerrain.GetSkyHeightY` | src/pages/Home/utils/terrain.ts:167-170 | Always in `[0, h]`. It is the rounded product when that is in range, and a zero height gives the row of an 800-pixel viewport. |
| `LegacyTerrain.GetScaleForY` | src/pages/Home/utils/terrain.ts:188-196 | The same clamped perspective scale as the current file: bounded, and flat beyond the outer lines. |
| `Common.Round` | src/core/terrain/bounds.ts:187 | `Math.round` gives the integer within half a unit of its argument, with halves going up. |
| `Common.Clamp` | src/pages/Home/components/Elements/Floor/FloorElements.tsx:94 | `max(lo, min(v, hi))` lies in the interval, leaves values already inside it alone, and otherwise gives an end. |
| `Common.CentredJitter` | src/pages/Home/components/Elements/Floor/FloorElements.tsx:58 | `round((p - 0.5) * spread)` moves by at most half the spread either way. |
| `Common.ForwardJitter` | src/pages/Home/components/Elements/Floor/CanvasElements.tsx:44 | `round(p * spread)` lies in `[0, spread]`. |
| `Sequences.SortBy` | src/pages/Home/components/Elements/Floor/FloorElements.tsx:84 | The comparator sort returns a rearrangement of its input in ascending key order. |
| `Sequences.SortByStable` | src/pages/Home/components/Elements/Floor/FloorElements.tsx:84 | The sort is stable: for every key, the elements with that key come out in the order they went in, as `Array.prototype.sort` guarantees. |
| `Sequences.Filter` | src/pages/Home/components/Elements/Sky/SkyElements.tsx:60 | The filter keeps exactly the elements satisfying the predicate, each as often as before, in their original order. |
| `Records.GroundAchievements` | src/pages/Home/components/Elements/Floor/FloorElements.tsx:46-48 | The ground list keeps exactly the achievements that are not of sky type, absent type included, with their multiplicity and order. |
| `Records.SkyAchievements` | src/pages/Home/components/Elements/Sky/SkyElements.tsx:28 | The sky list keeps exactly the sky-typed achievements, with their multiplicity and order. |
| `Records.TreeKey` | src/pages/Home/components/Elements/Floor/FloorElements.tsx:64-65 | The picture key cycles through "tree", "tree2" and "tree3" by the index modulo 3, in both directions. |
| `Records.KeptAchievements` | src/pages/Home/components/Elements/Floor/FloorElements.tsx:84-96 | Sorting, then editing positions in place, keeps every achievement as often as before. |
| `Passes.EvenSpreadX` | src/pages/Home/components/Elements/Floor/FloorElements.tsx:49-53 | The spread position lies in the band, the first at the left edge and the last (of two or more) at the right edge. In general `x - minX` is the nearest integer to `index * (maxX - minX) / n`, with `n = max(count - 1, 1)` and halves rounded up. |
| `Passes.SpaceAfter` | src/pages/Home/components/Elements/Floor/FloorElements.tsx:86-90 | One spacing step changes only `x`, to `max(cur.x, prev.x + gap)`: a record already far enough right stays, a closer one lands exactly `gap` past its predecessor. |
| `Passes.SpaceFrom` | src/pages/Home/components/Elements/Floor/FloorElements.tsx:85-91 | The reference for the spacing loop: applying the step from a given index onward, each record against its already-updated predecessor, keeps the list's length and leaves every record before that index as it was. |
| `Passes.SpacingPass` | src/pages/Home/components/Elements/Floor/FloorElements.tsx:84-91 | The loop equals the reference `SpaceFrom` from index 1. After spacing, every record is at least `gap` right of its predecessor, and only `x` has changed. No record moves left and the first does not move. A record that moved sits exactly `gap` after its predecessor. |
| `Passes.ClampPass` | src/pages/Home/components/Elements/Floor/CanvasElements.tsx:67-70 | The loop equals clamping every `x` independently (`ClampAll`). Every `x` ends in the band, and only `x` changes. Records inside stay put, records outside go to the nearer edge, and the left-to-right order is kept. |
| `Passes.OverlapX` | src/pages/Home/components/Elements/Floor/FloorElements.tsx:103-116 | The horizontal overlap is non-negative and no wider than either box. It is positive exactly when the centres are closer than half the summed widths. |
| `Passes.OverlapY` | src/pages/Home/components/Elements/Floor/FloorElements.tsx:105-120 | The vertical overlap is non-negative and no taller than either box. It is positive exactly when each foot is less than the other box's height above or below the other foot. |
| `Passes.OverlapIgnoresLift` | src/pages/Home/components/Elements/Floor/CanvasElements.tsx:76-85 | Lifting both hitboxes by 8 pixels never changes their overlap. |
| `Passes.NudgeAmount` | src/pages/Home/components/Elements/Floor/FloorElements.tsx:124 | The amount is `min(maxNudge, ceil(overlap / 2))`: never above the cap, never above the rounded-up half, and equal to that half whenever the half is below the cap. With a cap of at most 6 and an overlap above 10, it is the whole cap. |
| `Passes.NudgePair` | src/pages/Home/components/Elements/Floor/FloorElements.tsx:99-126 | For a pair overlapping by more than 10 pixels both ways, the one further down (`b` on a tie) moves down by the nudge amount, which is the whole cap when the cap is at most 6 (both canvases use 5). Any other pair is unchanged, and only `y` ever moves. |
| `Passes.NudgeFrom` | src/pages/Home/components/Elements/Floor/FloorElements.tsx:99-127 | The reference for the overlap loop: applying the pair step from a given index onward keeps the list's length and leaves every record before that index as it was. |
| `Passes.NudgePass` | src/pages/Home/components/Elements/Floor/FloorElements.tsx:99-127 | The loop equals the left-to-right application of the pair step to each adjacent pair on the list as updated so far, so the first record ends as the first pair step left it. Only `y` moves; with a cap of 5 each record moves down by 0, 5 or 10 pixels in total. |
| `FloorPlacement.AnchorFor` | src/pages/Home/components/Elements/Floor/FloorElements.tsx:27-31 | The anchor table gives 0.88, 0.9 and 0.87 for the three tree pictures and 0.9 for anything else. |
| `FloorPlacement.MakeRecord` | src/pages/Home/components/Elements/Floor/FloorElements.tsx:51-78 | A new tree lies within 30 pixels of its spread position with its foot on the contour at its own `x`. It is 90 by 95, with the cyclic picture and that picture's anchor. |
| `FloorPlacement.InitialRecords` | src/pages/Home/components/Elements/Floor/FloorElements.tsx:46-78 | One tree per ground achievement, in order. |
| `FloorPlacement.ClampAndAnchor` | src/pages/Home/components/Elements/Floor/FloorElements.tsx:93-96 | The loop equals its reference `AnchorAll`: every tree is clamped into the band and its foot is re-read from the contour at the clamped `x`. Nothing else changes. |
| `FloorPlacement.StagesPlace` | src/pages/Home/components/Elements/Floor/FloorElements.tsx:84-127 | A tree that went through spacing, clamping with re-anchoring and the nudge ends in the band with its foot 0, 5 or 10 pixels below the contour. |
| `FloorPlacement.Arrange` | src/pages/Home/components/Elements/Floor/FloorElements.tsx:80-127 | The result is exactly the initial records sorted by `x`, spaced by 20 (`SpaceFrom`), clamped into the band with the foot re-read from the contour (`AnchorAll`), and nudged (`NudgeFrom`). Every ground achievement has exactly one tree, each in the band and 0, 5 or 10 pixels below the contour. |
| `FloorPlacement.Compute` | src/pages/Home/components/Elements/Floor/FloorElements.tsx:42-131 | The drawn list is exactly the arranged records sorted by the bottom of the box (far to near), so it is a rearrangement of them. It holds each ground achievement exactly once, every tree placed as above. |
| `LegacyFloorPlacement.MakeRecord` | src/pages/Home/components/Elements/Floor/CanvasElements.tsx:35-50 | A new tree lies within 30 pixels of its spread position. Its foot is between 10 pixels above and 80 below the contour at the spread position (not at its own `x`). It has no anchor. |
| `LegacyFloorPlacement.InitialRecords` | src/pages/Home/components/Elements/Floor/CanvasElements.tsx:30-50 | One tree per ground achievement, in order, with its foot bounded by the contour at its own spread position. |
| `LegacyFloorPlacement.StagesPlace` | src/pages/Home/components/Elements/Floor/CanvasElements.tsx:57-91 | A tree that went through spacing, clamping without re-anchoring and the nudge ends in the band. Its foot is between 10 above and 90 below the contour at its spread position. |
| `LegacyFloorPlacement.Arrange` | src/pages/Home/components/Elements/Floor/CanvasElements.tsx:52-91 | The result is exactly the initial records sorted by `x`, spaced by 20, clamped into the band without moving the foot (`ClampAll`), and nudged with the hitbox lifted by 8. Every ground achievement has exactly one tree, placed as above and without an anchor. |
| `LegacyFloorPlacement.Compute` | src/pages/Home/components/Elements/Floor/CanvasElements.tsx:27-95 | The drawn list is exactly the arranged records sorted by foot (far to near). It holds each ground achievement exactly once, every tree placed as above. |
| `SkyPlacement.SkyHeight` | src/pages/Home/components/Elements/Sky/SkyElements.tsx:39-41 | A sky element is never above row 60. It is never below the sky band when the band reaches row 60, and it sits on row 60 when the band does not. |
| `SkyPlacement.MakeRecord` | src/pages/Home/components/Elements/Sky/SkyElements.tsx:34-44 | A new sky element lies within 30 pixels of its spread position and between row 60 and the sky band at its own `x`. It is a 40 by 30 "cloud". |
| `SkyPlacement.InitialRecords` | src/pages/Home/components/Elements/Sky/SkyElements.tsx:28-44 | One element per sky achievement, in order. |
| `SkyPlacement.ValidSkyRecords` | src/pages/Home/components/Elements/Sky/SkyElements.tsx:59-60 | The kept records are exactly those passing the sky check at their final spot, each as often as before and in the same relative order. |
| `SkyPlacement.ValidSkyRecordsMembers` | src/pages/Home/components/Elements/Sky/SkyElements.tsx:59-60 | A record is kept exactly when it was arranged and passes the sky check. |
| `SkyPlacement.Star` | src/pages/Home/components/Elements/Sky/SkyElements.tsx:73-78 | A kept record becomes a 6 by 6 "star" with the star anchor, at the same spot and for the same achievement. |
| `SkyPlacement.StarPass` | src/pages/Home/components/Elements/Sky/SkyElements.tsx:71-78 | Every kept record is redrawn as a star, one for one, with the picture's anchor or 0.98. |
| `SkyPlacement.StarPassMembers` | src/pages/Home/components/Elements/Sky/SkyElements.tsx:71-78 | The stars are exactly the kept records, redrawn. |
| `SkyPlacement.StarKeepsValid` | src/pages/Home/components/Elements/Sky/SkyElements.tsx:60-78 | Redrawing as a star keeps the spot, so a star still passes the sky check and is never above row 60. |
| `SkyPlacement.StarPassKeepsOrder` | src/pages/Home/components/Elements/Sky/SkyElements.tsx:62-78 | The star loop keeps a top-to-bottom order. |
| `SkyPlacement.StarPassPermutation` | src/pages/Home/components/Elements/Sky/SkyElements.tsx:62-78 | Redrawing two rearrangements of the same records gives two rearrangements of the same stars, so sorting before the star loop changes only the order of the stars. |
| `SkyPlacement.Arrange` | src/pages/Home/components/Elements/Sky/SkyElements.tsx:46-57 | The result is exactly the initial records sorted by `x`, spaced by 24 and clamped into the band. Every sky achievement has exactly one element, each in the band of padding 50. |
| `SkyPlacement.Compute` | src/pages/Home/components/Elements/Sky/SkyElements.tsx:25-78 | The arranged records are those of `Arrange`. The stars are exactly the records that pass the sky check, sorted by `y` and redrawn. So a star is drawn for an arranged element exactly when it passes the check, each valid element gets one star, every star is valid and never above row 60, and the stars run top to bottom. |
| `OriginalPlacement.Band` | src/pages/Home/components/Elements/CanvasElements.tsx:30-33 | The band of this canvas starts at 40 and ends at `max(width - 40, 41)`. |
| `OriginalPlacement.Compute` | src/pages/Home/components/Elements/CanvasElements.tsx:30-56 | Every achievement, sky ones included, becomes a tree, in achievement order. Each lies within 30 pixels of its spread position, with its foot between 10 above and 80 below the contour there. |
| `OriginalPlacement.NearBand` | src/pages/Home/components/Elements/CanvasElements.tsx:36-54 | With no clamp, a tree can stand outside the band, but never by more than 30 pixels. |
| `TerrainEngine.TooClose` | src/core/terrain/TerrainEngine.ts:18-24 | A spot is too close exactly when some listed spot lies strictly within the minimum distance. |
| `TerrainEngine.AppendKeepsSpaced` | src/core/terrain/TerrainEngine.ts:38-43 | Appending a spot that is not too close keeps the used list pairwise spaced. |
| `TerrainEngine.FirstAccepted` | src/core/terrain/TerrainEngine.ts:31-45 | The tries loop returns the first accepted try among the first 200, and nothing exactly when all 200 are refused. |
| `TerrainEngine.Spread` | src/core/terrain/TerrainEngine.ts:34-36 | `random * (hi - lo) + lo` lies in `[lo, hi)` for a non-empty range. |
| `TerrainEngine.SkyCandidate` | src/core/terrain/TerrainEngine.ts:34-36 | A sky try lies across the band of padding 50, and between row 8 and the column's sky band whenever that band reaches row 8. |
| `TerrainEngine.GenerateSkyPosition` | src/core/terrain/TerrainEngine.ts:29-49 | The first accepted sky try is returned and recorded. Failing that, the fallback `(minX + 50, 80)` is returned and nothing is recorded. The ground list is untouched and the sky list stays pairwise spaced. |
| `TerrainEngine.GroundCandidate` | src/core/terrain/TerrainEngine.ts:59-62 | On a window wider than 40 pixels, a ground try lies in `[20, width - 20)`, 4 pixels above the lowest ground row of its column. |
| `TerrainEngine.GenerateGroundPosition` | src/core/terrain/TerrainEngine.ts:54-71 | The first ground try not within 20 pixels of a used spot is returned and recorded. Failing that, `(width / 2, height - 60)` is returned and nothing is recorded. The sky list is untouched and the ground list stays spaced. |
| `TerrainEngine.GeneratePositionForAchievement` | src/core/terrain/TerrainEngine.ts:76-86 | Cloud, kite and bird keys go to the sky engine and every other key goes to the ground engine. Only the chosen layer's list can change. |
| `TerrainGrid.Percent` | src/hooks/useTerrainGrid.ts:41-42 | A line's fraction lies in `[0, 1]`: 0.5 for a single line, otherwise 0 for the first and 1 for the last. |
| `TerrainGrid.PercentIncreasing` | src/hooks/useTerrainGrid.ts:41-42 | Later lines lie strictly further across. |
| `TerrainGrid.CreateGrid` | src/hooks/useTerrainGrid.ts:36-48 | The fresh grid has the requested shape. Every cell is empty, unoccupied, knows its own indices and lies at its column's and row's fractions. |
| `TerrainGrid.FirstGroundRow` | src/hooks/useTerrainGrid.ts:63-69 | The first row at or below the column's ground height, with none above it; the row count when there is none. |
| `TerrainGrid.ClassOfMeaning` | src/hooks/useTerrainGrid.ts:55-70 | A cell is sky exactly when it lies strictly above the column's ground height, the contour exactly when it is the first cell at or below it, and ground exactly for every later such cell. |
| `TerrainGrid.ClassifyGrid` | src/hooks/useTerrainGrid.ts:51-72 | In every visited column each cell gets the class above. Nothing else about any cell changes, and the shape is kept. |
| `TerrainGrid.OneContourPerColumn` | src/hooks/useTerrainGrid.ts:62-69 | A classified column has at most one contour cell. It has one exactly when some cell reaches the ground height. |
| `TerrainGrid.CreatedColumnsAreLayered` | src/hooks/useTerrainGrid.ts:36-72 | A classified fresh grid reads, top to bottom in each column: sky, then at most one contour, then ground. |
| `TerrainGrid.UseTerrainGrid` | src/hooks/useTerrainGrid.ts:134-149 | The hook's grid has the requested shape. A cell is sky exactly when its row fraction is above the terrain's ground fraction for its column. |
| `TerrainGrid.SnapToGround` | src/hooks/useTerrainGrid.ts:74-80 | The ground height is clamped into `[0, 1]` and left alone when already inside. |
| `TerrainGrid.Range` | src/hooks/useTerrainGrid.ts:97 | The column indices `0 .. cols - 1`, in order. |
| `TerrainGrid.DrawIndex` | src/hooks/useTerrainGrid.ts:85 | `floor(random * (i + 1))` is a valid index in `[0, i]`. |
| `TerrainGrid.Shuffle` | src/hooks/useTerrainGrid.ts:82-89 | The shuffle returns a rearrangement of its input. |
| `TerrainGrid.FirstFreeRow` | src/hooks/useTerrainGrid.ts:100-115 | The topmost free cell of the column for the layer (sky cells for the sky, ground or contour cells for the ground), with none above it. |
| `TerrainGrid.SearchColumns` | src/hooks/useTerrainGrid.ts:99-119 | The search finds nothing exactly when every column in the order is full. Otherwise it returns the topmost free cell of the first column in the order that has one. |
| `TerrainGrid.FindFreePoint` | src/hooks/useTerrainGrid.ts:93-120 | Whatever the shuffle, the result is none exactly when every column is full. Otherwise it is the topmost free cell of some non-full column. |
| `TerrainGrid.OccupyPoint` | src/hooks/useTerrainGrid.ts:123-128 | Exactly the cell at the point's own row and column becomes occupied. A point outside the grid changes nothing. |
| `TerrainGrid.OccupyKeepsIndices` | src/hooks/useTerrainGrid.ts:123-128 | Occupying a cell preserves the grid invariant that every cell records its own row and column. |
| `TerrainGrid.OccupiedIsNotFoundAgain` | src/hooks/useTerrainGrid.ts:93-128 | Once the found cell is occupied, the same search never returns it again. |
| `TerrainGrid.FirstHillRow` | src/hooks/useTerrainGrid.ts:172-180 | The first row of the column inside the hill, with none above it; the height when there is none. |
| `TerrainGrid.ColumnGround` | src/hooks/useTerrainGrid.ts:172-181 | One column of the cache lies in `[0, h]`. When the column meets the hill, the entry is a whole row inside the hill with no hill row above it. When it misses the hill, the entry is `0.12 * h`. |
| `TerrainGrid.GenerateGroundY` | src/hooks/useTerrainGrid.ts:154-183 | Without a 2D context the cache is left as it was. Otherwise it holds one entry per window column: the first hill row, or `0.12 * h`. |
| `TerrainGrid.CacheAgreesWithForegroundTop` | src/hooks/useTerrainGrid.ts:154-183 | For the current window, the cache equals `getTopPxForeground` in every column that meets the foreground. Elsewhere it holds `0.12 * h` where the scan answers 0. |
| `TerrainGrid.GetGroundYForX` | src/hooks/useTerrainGrid.ts:186-190 | Reading the cache gives 0 for an empty cache. Otherwise it gives the entry of the nearest column clamped into the cache, always a value of the cache. |
| `TerrainGrid.GroundYForColumn` | src/hooks/useTerrainGrid.ts:186-190 | Reading the cache at a whole column inside it returns that column's entry. |
| `Picking.GetMousePos` | src/pages/Home/utils/canvasUtils.ts:3-9 | Canvas coordinates are the client coordinates less the canvas corner. A pointer inside the canvas rectangle maps into `[0, width] x [0, height]`. |
| `Picking.HitBox` | src/pages/Home/utils/canvasUtils.ts:18-24 | The hit box is `w` wide centred on `x` and `h` high. It starts `anchor * h` above the foot, with the anchor defaulting to 0.9. |
| `Picking.FootIsHit` | src/pages/Home/utils/canvasUtils.ts:18-26 | With a non-negative size and an anchor in `[0, 1]`, a record's own foot is inside its hit box. |
| `Picking.HitTest` | src/pages/Home/utils/canvasUtils.ts:11-31 | The hit test returns nothing exactly when no box contains the point. Otherwise it returns the last record in the list whose box contains it, the one drawn on top. |

## Left out

- **Curve geometry and containment.** Parsing the SVG path strings and deciding whether a pixel lies inside a Bezier outline is the browser's job. The model takes it as the `inPath` oracle, so no property depends on the actual hill shape.
- **Floating-point arithmetic.** Values are exact reals and unbounded integers. `Math.round` is modelled exactly (halves go up). Rounding error in products such as `h * 0.6` is not modelled.
- **Random sources.** The sine-based generators and `Math.random()` are functions or streams into `[0, 1)`. Their actual values, and the statistics of the spread, are not modelled.
- **Distances.** `Math.hypot(dx, dy) < d` is stated as `d > 0 && dx² + dy² < d²`. That is equivalent over the reals.
- **Rendering and interaction.** Drawing, device-pixel-ratio scaling, the star twinkle animation, React state and effects, hover tooltips, image caches and preloading, and `drawFallback` are left out. None of them decides a position.
- **`groundHeightAt`.** This trigonometric default height function of the grid is left out. `ClassifyGrid` takes any height function, and `UseTerrainGrid` passes the terrain's `getGroundYPercentAt`, as the hook does.
- **Other source files.** `HillOutline.tsx`, the layers, `index.tsx` and the image-cache and SVG tables are not part of this model.
- TerrainGrid.ClassifyGrid: requires every row to be at least as long as the first. The source indexes `classified[y][x]` for every column of row 0 and would fail on a shorter row; that crash path is not modelled.
- TerrainGrid.FindFreePoint: requires every row to be at least as long as the first, for the same reason (`grid[y][x]` on a shorter row).
- TerrainGrid.Shuffle: states only that the result is a rearrangement of the input. It does not state which permutation a given random stream produces.
- Bounds.IsGround: uses the corrected, viewport-keyed cache rather than the never-cleared `cachedPaths` of `bounds.ts:63-72`. After a resize the source answers from the old viewport's paths; the model's ground and sky queries, and the placements built on them, answer for the current viewport. The as-written behaviour is `Bounds.IsGroundAsWritten`.
- Bounds.IsGroundMeaning: states containment in the current viewport's paths, which is the corrected query. It does not describe `bounds.ts:83` after a resize, where the point is checked against the cached paths of an earlier viewport.

## Findings

| source | as written | input that shows it | evidently intended | confidence | as-written member | corrected member |
|---|---|---|---|---|---|---|
| src/core/terrain/bounds.ts:63-72 | The scaled paths are cached in a module variable on the first ground query and never rebuilt. | A first query at width 1200 and a later query after a resize to width 800: the later query still checks containment against paths scaled to 1200. | The cached paths are rebuilt when the viewport changes, so ground and sky answers always match the current viewport. | not executed; medium, the stale geometry follows directly from the code | `Bounds.GetScaledPaths` and `Bounds.IsGroundAsWritten` (exhibited by `Bounds.StaleCacheAfterResize` and `LegacyTerrain.StaleAnswerAfterResize`) | `Bounds.GetScaledPathsKeyed` |

=== FILE: bounds.dfy ===
/** The current terrain query layer (`src/core/terrain/bounds.ts`): ground and
    sky detection over the four scaled ranges, the per-column contour scans,
    the sky placement bounds and the perspective scale. */
module Bounds {
  import opened Common
  import opened Scene

  const GroundPadding: int := 20
  const TreeMinSpacing: int := 20
  const TreeMaxVerticalNudge: int := 5

  const SkyPadding: int := 50
  const SkyMargin: int := 28
  const SkyMinY: int := 8
  const SkyTopPadding: int := 60
  const MinSkySpacing: int := 24

  const DefaultWidth: nat := 1200
  const DefaultHeight: nat := 800

  // ---------------------------------------------------------------------
  // Scaled path cache
  // ---------------------------------------------------------------------

  /** The module-level `cachedPaths` of the source: empty until the first
      ground query, then filled with the paths of the viewport of that moment. */
  datatype PathCache = Empty | Filled(paths: seq<ScaledPath>)

  /** `getScaledPaths` as written: it fills the cache once and afterwards
      returns the stored paths whatever the current viewport is. */
  function GetScaledPaths(cache: PathCache, w: int, h: int): (res: (seq<ScaledPath>, PathCache))
    ensures res.1 == Filled(res.0)
    ensures cache.Filled? ==> res.0 == cache.paths
    ensures cache.Empty? ==> res.0 == ScaleAll(w, h)
  {
    match cache
    case Filled(paths) => (paths, cache)
    case Empty => (ScaleAll(w, h), Filled(ScaleAll(w, h)))
  }

  /** After a resize that changes the width, the cached paths are those of the
      old viewport, not the new one: ground queries keep using stale geometry. */
  lemma StaleCacheAfterResize(w1: int, h1: int, w2: int, h2: int)
    requires w1 != w2
    ensures var first := GetScaledPaths(Empty, w1, h1);
            var second := GetScaledPaths(first.1, w2, h2);
            second.0 == ScaleAll(w1, h1) && second.0 != ScaleAll(w2, h2)
  {
    var first := GetScaledPaths(Empty, w1, h1);
    var second := GetScaledPaths(first.1, w2, h2);
    var stale := second.0[0].transform;
    var current := ScaleAll(w2, h2)[0].transform;
    assert MapX(stale, 1000.0) == w1 as real;
    assert MapX(current, 1000.0) == w2 as real;
    assert stale != current;
  }

  /** A cache keyed by the viewport it was built for. */
  datatype KeyedPathCache = NoPaths | PathsFor(width: int, height: int, paths: seq<ScaledPath>)

  ghost predicate ValidCache(cache: KeyedPathCache) {
    cache.PathsFor? ==> cache.paths == ScaleAll(cache.width, cache.height)
  }

  /** The corrected cache: rebuilt whenever the viewport differs from the
      one it was built for, so the paths always match the viewport. */
  function GetScaledPathsKeyed(cache: KeyedPathCache, w: int, h: int): (res: (seq<ScaledPath>, KeyedPathCache))
    requires ValidCache(cache)
    ensures res.0 == ScaleAll(w, h)
    ensures res.1 == PathsFor(w, h, res.0) && ValidCache(res.1)
    ensures cache.PathsFor? && cache.width == w && cache.height == h ==> res.1 == cache
  {
    if cache.PathsFor? && cache.width == w && cache.height == h then (cache.paths, cache)
    else
      var paths := ScaleAll(w, h);
      (paths, PathsFor(w, h, paths))
  }

  // ---------------------------------------------------------------------
  // Sky / ground detection
  // ---------------------------------------------------------------------

  /** `isGround` as written: with no 2D context it answers false and leaves
      the cache alone; otherwise it tests the point against whatever
      `getScaledPaths` returns, filling the cache on the first call and
      keeping it afterwards. */
  function IsGroundAsWritten(env: Env, cache: PathCache, x: real, y: real): (res: (bool, PathCache))
    ensures !env.hasContext ==> res == (false, cache)
    ensures env.hasContext ==> res.1.Filled? && (cache.Filled? ==> res.1 == cache)
    ensures env.hasContext && cache.Empty? ==> res.1 == Filled(ScaleAll(env.width, env.height))
    ensures env.hasContext ==>
      (res.0 <==> exists i :: 0 <= i < |res.1.paths| && env.inPath(res.1.paths[i], x, y))
  {
    if !env.hasContext then (false, cache)
    else
      var got := GetScaledPaths(cache, env.width, env.height);
      (AnyContains(env, got.0, x, y, 0), got.1)
  }

  /** While the cache is empty or still holds the current viewport's paths,
      the as-written query answers exactly as the corrected one. */
  lemma AsWrittenMatchesWhileViewportUnchanged(env: Env, cache: PathCache, x: real, y: real)
    requires cache.Empty? || cache.paths == ScaleAll(env.width, env.height)
    ensures IsGroundAsWritten(env, cache, x, y).0 == IsGround(env, x, y)
  {
  }

  /** `isGround` with the corrected cache: the point lies in at least one of
      the four ranges scaled to the current viewport (the paths a keyed cache
      returns); with no 2D context it is never ground. */
  predicate IsGround(env: Env, x: real, y: real)
  {
    var paths := ScaleAll(env.width, env.height);
    env.hasContext && AnyContains(env, paths, x, y, 0)
  }

  lemma IsGroundMeaning(env: Env, x: real, y: real)
    ensures IsGround(env, x, y) <==>
      env.hasContext &&
      exists i :: 0 <= i < |Mountains| &&
                  env.inPath(CreateScaledPath(Mountains[i], env.width, env.height), x, y)
  {
    var paths := ScaleAll(env.width, env.height);
    if IsGround(env, x, y) {
      var i :| 0 <= i < |paths| && InPath(env, paths[i], x, y);
      assert paths[i] == CreateScaledPath(Mountains[i], env.width, env.height);
    }
    if env.hasContext &&
       exists i :: 0 <= i < |Mountains| &&
                   env.inPath(CreateScaledPath(Mountains[i], env.width, env.height), x, y) {
      var i :| 0 <= i < |Mountains| &&
               env.inPath(CreateScaledPath(Mountains[i], env.width, env.height), x, y);
      assert InPath(env, paths[i], x, y);
    }
  }

  /** `isSky` is the exact negation of `isGround`; with no context, everything is sky. */
  predicate IsSky(env: Env, x: real, y: real)
  {
    !IsGround(env, x, y)
  }

  /** `isMountain(index, x, y)`: containment in a single range, scaled afresh. */
  predicate IsMountain(env: Env, index: nat, x: real, y: real)
    requires index < |Mountains|
  {
    InPath(env, CreateScaledPath(Mountains[index], env.width, env.height), x, y)
  }

  predicate IsMountainForeground(env: Env, x: real, y: real) {
    IsMountain(env, ForegroundIndex, x, y)
  }

  /** Ground and foreground membership of whole-pixel row `y` of column `x`. */
  predicate GroundRow(env: Env, x: real, y: int) {
    IsGround(env, x, y as real)
  }

  predicate ForegroundRow(env: Env, x: real, y: int) {
    IsMountainForeground(env, x, y as real)
  }

  /** The foreground is one of the ranges, so foreground points are ground. */
  lemma {:induction false} ForegroundIsGround(env: Env, x: real, y: real)
    requires IsMountainForeground(env, x, y)
    ensures IsGround(env, x, y)
    ensures !IsSky(env, x, y)
  {
    var paths := ScaleAll(env.width, env.height);
    assert InPath(env, paths[ForegroundIndex], x, y);
  }

  // ---------------------------------------------------------------------
  // Column scans
  // ---------------------------------------------------------------------

  /** `getBottomPx`: scanning up from the last row, the lowest ground row of
      the column; `h - 50` when the column holds no ground at all. */
  function GetBottomPx(env: Env, x: real): (r: int)
    ensures var h := env.height as int;
      || (0 <= r < h && GroundRow(env, x, r) &&
          forall y :: r < y < h ==> !GroundRow(env, x, y))
      || (r == h - 50 && forall y :: 0 <= y < h ==> !GroundRow(env, x, y))
  {
    var inside := y => GroundRow(env, x, y);
    var found := ScanUp(inside, env.height as int - 1);
    if found >= 0 then
      assert GroundRow(env, x, found) by { assert inside(found); }
      assert forall y :: found < y < env.height ==> !GroundRow(env, x, y) by {
        forall y | found < y < env.height
          ensures !GroundRow(env, x, y)
        {
          assert !inside(y);
        }
      }
      found
    else
      assert forall y :: 0 <= y < env.height ==> !GroundRow(env, x, y) by {
        forall y | 0 <= y < env.height
          ensures !GroundRow(env, x, y)
        {
          assert !inside(y);
        }
      }
      env.height as int - 50
  }

  /** `getTopPxForeground`: scanning down from row 0, the first row inside the
      foreground range; 0 when the column holds none. */
  function GetTopPxForeground(env: Env, x: real): (r: int)
    ensures var h := env.height as int;
      || (0 <= r < h && ForegroundRow(env, x, r) &&
          forall y :: 0 <= y < r ==> !ForegroundRow(env, x, y))
      || (r == 0 && forall y :: 0 <= y < h ==> !ForegroundRow(env, x, y))
  {
    var inside := y => ForegroundRow(env, x, y);
    var found := ScanDown(inside, 0, env.height);
    if found < env.height then
      assert ForegroundRow(env, x, found) by { assert inside(found); }
      assert forall y :: 0 <= y < found ==> !ForegroundRow(env, x, y) by {
        forall y | 0 <= y < found
          ensures !ForegroundRow(env, x, y)
        {
          assert !inside(y);
        }
      }
      found
    else
      assert forall y :: 0 <= y < env.height ==> !ForegroundRow(env, x, y) by {
        forall y | 0 <= y < env.height
          ensures !ForegroundRow(env, x, y)
        {
          assert !inside(y);
        }
      }
      0
  }

  // ---------------------------------------------------------------------
  // Sky bounds
  // ---------------------------------------------------------------------

  /** `getSkyMaxY`: `margin` pixels above the foreground contour, never negative. */
  function GetSkyMaxY(env: Env, x: real, margin: int): (r: int)
    ensures r >= 0
    ensures r >= GetTopPxForeground(env, x) - margin
    ensures r == 0 || r == GetTopPxForeground(env, x) - margin
  {
    Max(0, GetTopPxForeground(env, x) - margin)
  }

  /** Every row of the sky band `[0, getSkyMaxY(x, margin)]` lies above the
      foreground contour, for any positive margin, unless the foreground
      reaches the very first row (where the band degenerates to row 0). */
  lemma SkyBandAboveForeground(env: Env, x: real, margin: int, y: int)
    requires margin >= 1
    requires !ForegroundRow(env, x, 0)
    requires 0 <= y <= GetSkyMaxY(env, x, margin) && y < env.height
    ensures !ForegroundRow(env, x, y)
  {
    var top := GetTopPxForeground(env, x);
    if top - margin < 0 {
      assert y == 0;
    }
  }

  datatype YBounds = YBounds(minY: int, maxY: int)

  /** `getSkyYBounds` */
  function GetSkyYBounds(env: Env, x: real, margin: int, minY: int): (b: YBounds)
    ensures b.minY == minY && b.maxY == GetSkyMaxY(env, x, margin)
  {
    YBounds(minY, GetSkyMaxY(env, x, margin))
  }

  datatype XBounds = XBounds(minX: int, maxX: int, viewportWidth: int)

  /** `window.innerWidth || 1200` */
  function ViewportWidth(width: nat): (w: nat)
    ensures w > 0
    ensures width > 0 ==> w == width
  {
    if width == 0 then DefaultWidth else width
  }

  /** `getSkyXBounds(padding)`: the horizontal band `[padding, width - padding]`,
      never narrower than one pixel. */
  function GetSkyXBounds(width: nat, padding: int): (b: XBounds)
    ensures b.viewportWidth == ViewportWidth(width)
    ensures b.minX == padding
    ensures b.maxX >= b.minX + 1
    ensures b.maxX == b.viewportWidth - padding || b.maxX == padding + 1
    ensures b.viewportWidth - padding >= padding + 1 ==> b.maxX == b.viewportWidth - padding
  {
    var vw := ViewportWidth(width);
    XBounds(padding, Max(vw - padding, padding + 1), vw)
  }

  /** `canPlaceInSky`: not above row 60 (`max(SKY_MIN_Y, SKY_TOP_PADDING)`),
      not below the sky band of the column, and outside every range. */
  predicate CanPlaceInSky(env: Env, x: real, y: real, margin: int)
  {
    var maxY := GetSkyMaxY(env, x, margin);
    var minYAllowed := Max(SkyMinY, SkyTopPadding);
    if y < minYAllowed as real || y > maxY as real then false
    else IsSky(env, x, y)
  }

  /** A sky spot is never inside the foreground and, for a positive margin at
      a whole-pixel row of the viewport, lies strictly above the contour. */
  lemma SkySpotClearOfForeground(env: Env, x: real, y: int, margin: int)
    requires CanPlaceInSky(env, x, y as real, margin)
    ensures !IsMountainForeground(env, x, y as real)
    ensures margin >= 1 && y < env.height ==>
      forall y' :: 0 <= y' <= y ==> !ForegroundRow(env, x, y')
  {
    if IsMountainForeground(env, x, y as real) {
      ForegroundIsGround(env, x, y as real);
    }
    if margin >= 1 && y < env.height {
      assert ForegroundRow(env, x, 0) ==> GetTopPxForeground(env, x) == 0;
      forall y' | 0 <= y' <= y
        ensures !ForegroundRow(env, x, y')
      {
        SkyBandAboveForeground(env, x, margin, y');
      }
    }
  }

  // ---------------------------------------------------------------------
  // Sky heights and perspective
  // ---------------------------------------------------------------------

  const SkyHeightLow: real := 0.6
  const SkyHeightMid: real := 0.4
  const SkyHeightHigh: real := 0.2

  /** `window.innerHeight || 800` */
  function ViewportHeight(height: nat): (h: nat)
    ensures h > 0
    ensures height > 0 ==> h == height
  {
    if height == 0 then DefaultHeight else height
  }

  /** `Math.max(0, Math.min(h, Math.round(v)))` */
  function RoundIntoRange(v: real, h: nat): (r: int)
    ensures 0 <= r <= h
    ensures 0.0 <= v <= h as real ==> r == Round(v)
    ensures Round(v) < 0 ==> r == 0
    ensures Round(v) > h ==> r == h
  {
    assert 0.0 <= v <= h as real ==> 0 <= Round(v) <= h by {
      if 0.0 <= v <= h as real {
        RoundWithin(v, 0, h);
      }
    }
    Max(0, Min(h, Round(v)))
  }

  /** `getSkyHeightY(fraction)`: the row at that fraction of the viewport height,
      rounded and kept inside `[0, h]`. */
  function GetSkyHeightY(height: nat, fraction: real): (r: int)
    ensures 0 <= r <= ViewportHeight(height)
    ensures var exact := ViewportHeight(height) as real * fraction;
            0.0 <= exact <= ViewportHeight(height) as real ==> r == Round(exact)
    ensures Round(ViewportHeight(height) as real * fraction) < 0 ==> r == 0
    ensures Round(ViewportHeight(height) as real * fraction) > ViewportHeight(height) ==> r == ViewportHeight(height)
  {
    RoundIntoRange(ViewportHeight(height) as real * fraction, ViewportHeight(height))
  }

  /** A smaller fraction never gives a lower row. */
  lemma HeightsOrdered(height: nat, f: real, g: real)
    requires f <= g
    ensures GetSkyHeightY(height, f) <= GetSkyHeightY(height, g)
  {
    var h := ViewportHeight(height) as real;
    assert h * f <= h * g;
    RoundMonotone(h * f, h * g);
  }

  datatype SkyLevel = Low | Mid | High

  /** `getSkyHeightLevelY` */
  function GetSkyHeightLevelY(height: nat, level: SkyLevel): (r: int)
    ensures level == Low ==> r == GetSkyHeightY(height, SkyHeightLow)
    ensures level == Mid ==> r == GetSkyHeightY(height, SkyHeightMid)
    ensures level == High ==> r == GetSkyHeightY(height, SkyHeightHigh)
  {
    match level
    case Low => GetSkyHeightY(height, SkyHeightLow)
    case Mid => GetSkyHeightY(height, SkyHeightMid)
    case High => GetSkyHeightY(height, SkyHeightHigh)
  }

  /** The three levels run top to bottom: high above mid above low (as rows,
      high's row is the smallest), each inside the viewport. */
  lemma SkyLevelsOrdered(height: nat)
    ensures 0 <= GetSkyHeightLevelY(height, High)
    ensures GetSkyHeightLevelY(height, High) <= GetSkyHeightLevelY(height, Mid)
    ensures GetSkyHeightLevelY(height, Mid) <= GetSkyHeightLevelY(height, Low)
    ensures GetSkyHeightLevelY(height, Low) <= ViewportHeight(height)
  {
    HeightsOrdered(height, SkyHeightHigh, SkyHeightMid);
    HeightsOrdered(height, SkyHeightMid, SkyHeightLow);
  }

  const PerspectiveLineFractions: seq<real> := [0.8, 0.6, 0.4, 0.2]
  const PerspectiveMinScale: real := 0.6
  const PerspectiveMaxScale: real := 1.2

  function GetPerspectiveLinesY(height: nat): (ys: seq<int>)
    ensures |ys| == |PerspectiveLineFractions|
    ensures forall i :: 0 <= i < |ys| ==> ys[i] == GetSkyHeightY(height, PerspectiveLineFractions[i])
    ensures forall i, j :: 0 <= i < j < |ys| ==> ys[j] <= ys[i]
  {
    var ys := seq(|PerspectiveLineFractions|, i requires 0 <= i < |PerspectiveLineFractions| =>
      GetSkyHeightY(height, PerspectiveLineFractions[i]));
    forall i, j | 0 <= i < j < |ys|
      ensures ys[j] <= ys[i]
    {
      HeightsOrdered(height, PerspectiveLineFractions[j], PerspectiveLineFractions[i]);
    }
    ys
  }

  /** `Math.min(...ys)` */
  function SeqMin(ys: seq<int>): (m: int)
    requires |ys| > 0
    ensures m in ys
    ensures forall k :: 0 <= k < |ys| ==> m <= ys[k]
  {
    if |ys| == 1 then ys[0] else Min(ys[0], SeqMin(ys[1..]))
  }

  /** `Math.max(...ys)` */
  function SeqMax(ys: seq<int>): (m: int)
    requires |ys| > 0
    ensures m in ys
    ensures forall k :: 0 <= k < |ys| ==> ys[k] <= m
  {
    if |ys| == 1 then ys[0] else Max(ys[0], SeqMax(ys[1..]))
  }

  /** The clamped linear map of `getScaleForY` between two distinct lines. */
  function Lerp(y: real, top: int, bottom: int, minScale: real, maxScale: real): (s: real)
    requires top < bottom
    ensures minScale <= maxScale ==> minScale <= s <= maxScale
    ensures y <= top as real ==> s == minScale
    ensures y >= bottom as real ==> s == maxScale
  {
    var span := (bottom - top) as real;
    DivisionBounds(y - top as real, span);
    Interpolate(ClampR((y - top as real) / span, 0.0, 1.0), minScale, maxScale)
  }

  /** `minScale + t * (maxScale - minScale)` for a fraction `t` of the way. */
  function Interpolate(t: real, minScale: real, maxScale: real): (s: real)
    requires 0.0 <= t <= 1.0
    ensures minScale <= maxScale ==> minScale <= s <= maxScale
    ensures t == 0.0 ==> s == minScale
    ensures t == 1.0 ==> s == maxScale
  {
    var d := maxScale - minScale;
    assert d >= 0.0 ==> 0.0 <= t * d <= d by {
      if d >= 0.0 { MulFractionBounds(t, d); }
    }
    minScale + t * d
  }

  /** `getScaleForY`: linear between the topmost perspective line (`minScale`)
      and the bottommost one (`maxScale`), flat beyond them; the midpoint when
      the lines coincide. */
  function GetScaleForY(height: nat, y: real, minScale: real, maxScale: real): (s: real)
    ensures var ys := GetPerspectiveLinesY(height);
            var top := SeqMin(ys);
            var bottom := SeqMax(ys);
      && (bottom == top ==> s == (minScale + maxScale) / 2.0)
      && (bottom != top && minScale <= maxScale ==> minScale <= s <= maxScale)
      && (bottom != top && y <= top as real ==> s == minScale)
      && (bottom != top && y >= bottom as real ==> s == maxScale)
  {
    var ys := GetPerspectiveLinesY(height);
    var top := SeqMin(ys);
    var bottom := SeqMax(ys);
    if bottom == top then (minScale + maxScale) / 2.0
    else
      assert top <= ys[0] <= bottom;
      Lerp(y, top, bottom, minScale, maxScale)
  }

  /** For every viewport height the perspective lines are distinct, so the
      midpoint branch of `getScaleForY` is never taken. */
  lemma PerspectiveLinesDistinct(height: nat)
    ensures SeqMin(GetPerspectiveLinesY(height)) < SeqMax(GetPerspectiveLinesY(height))
  {
    var ys := GetPerspectiveLinesY(height);
    var h := ViewportHeight(height);
    var lo := h as real * 0.2;
    var hi := h as real * 0.8;
    assert 0.0 <= lo <= h as real && 0.0 <= hi <= h as real;
    assert ys[0] == Round(hi) && ys[3] == Round(lo);
    if h == 1 {
      assert Round(hi) == 1 && Round(lo) == 0;
    } else {
      assert Round(hi) > Round(lo);
    }
    assert SeqMin(ys) <= ys[3] && ys[0] <= SeqMax(ys);
  }

  /** `Math.max(0, Math.min(1, yPx / h))` */
  function FractionOfHeight(yPx: int, h: nat): (r: real)
    requires h > 0
    ensures 0.0 <= r <= 1.0
    ensures 0 <= yPx <= h ==> r == yPx as real / h as real
  {
    var fraction := yPx as real / h as real;
    DivisionBounds(yPx as real, h as real);
    ClampR(fraction, 0.0, 1.0)
  }

  /** `getGroundYPercentAt`: the lowest ground row of the column at
      `xPercent` of the width, as a fraction of the height in `[0, 1]`. */
  function GetGroundYPercentAt(env: Env, xPercent: real): (r: real)
    ensures 0.0 <= r <= 1.0
    ensures var bottom := GetBottomPx(env, ColumnOf(env, xPercent) as real);
            0 <= bottom <= ViewportHeight(env.height) ==>
              r == bottom as real / ViewportHeight(env.height) as real
  {
    var yPx := GetBottomPx(env, ColumnOf(env, xPercent) as real);
    FractionOfHeight(yPx, ViewportHeight(env.height))
  }

  /** `Math.round(xPercent * w)`: the pixel column at a fraction of the width. */
  function ColumnOf(env: Env, xPercent: real): int {
    Round(xPercent * ViewportWidth(env.width) as real)
  }
}

=== FILE: common.dfy ===
/** Numeric helpers shared by every part of the terrain model: JavaScript's
    rounding, clamping, the unit interval produced by the pseudo-random
    sources, and an Option type for `?? default` lookups and nullable returns. */
module Common {

  datatype Option<+T> = None | Some(value: T) {
    /** The `??` operator of the source: the value, or `default` when absent. */
    function GetOr(default: T): T {
      match this
      case Some(v) => v
      case None => default
    }
  }

  /** A value of the half-open unit interval, as returned by `Math.random()`
      and by the `Math.abs(Math.sin(..) * ..) % 1` generators. */
  type Unit = r: real | 0.0 <= r < 1.0

  /** A point in canvas pixel space. */
  datatype Pt = Pt(x: real, y: real)

  function Max(a: int, b: int): int { if a >= b then a else b }
  function Min(a: int, b: int): int { if a <= b then a else b }
  function MaxR(a: real, b: real): real { if a >= b then a else b }
  function MinR(a: real, b: real): real { if a <= b then a else b }

  /** `Math.round`: the nearest integer, halves rounded towards +infinity. */
  function Round(r: real): (n: int)
    ensures n as real - 0.5 <= r < n as real + 0.5
  {
    (r + 0.5).Floor
  }

  /** Rounding never leaves an interval whose ends are integers. */
  lemma RoundWithin(r: real, lo: int, hi: int)
    requires lo as real <= r <= hi as real
    ensures lo <= Round(r) <= hi
  {
  }

  /** `Math.round` never reverses an order. */
  lemma RoundMonotone(a: real, b: real)
    requires a <= b
    ensures Round(a) <= Round(b)
  {
  }

  lemma RoundOfInt(n: int)
    ensures Round(n as real) == n
  {
  }

  /** `Math.max(lo, Math.min(v, hi))` */
  function Clamp(v: int, lo: int, hi: int): (r: int)
    ensures lo <= hi ==> lo <= r <= hi
    ensures lo <= v <= hi ==> r == v
    ensures r == v || r == lo || r == hi
  {
    Max(lo, Min(v, hi))
  }

  /** `Math.max(lo, Math.min(hi, v))` on reals. */
  function ClampR(v: real, lo: real, hi: real): (r: real)
    ensures lo <= hi ==> lo <= r <= hi
    ensures lo <= v <= hi ==> r == v
    ensures r == v || r == lo || r == hi
    ensures lo <= hi && v <= lo ==> r == lo
    ensures lo <= hi && v >= hi ==> r == hi
  {
    MaxR(lo, MinR(v, hi))
  }

  /** `Math.round((p - 0.5) * spread)`: a centred jitter of total width `spread`,
      which never moves further than half the spread. */
  function CentredJitter(p: Unit, spread: nat): (d: int)
    ensures -(spread as int) <= 2 * d <= spread
  {
    // (p - 0.5) * spread, written so that the only product is p * spread
    var q := p * spread as real;
    MulUnitBounds(p, spread as real);
    RoundShifted(q, spread);
    Round(q - spread as real / 2.0)
  }

  /** For `q` in `[0, s)` (or `q == 0` when `s == 0`), `Math.round(q - s/2)`
      lies within half of `s` either side of zero. */
  lemma RoundShifted(q: real, s: nat)
    requires 0.0 <= q <= s as real
    requires s > 0 ==> q < s as real
    ensures -(s as int) <= 2 * Round(q - s as real / 2.0) <= s
  {
    RoundWithinHalf(q - s as real / 2.0, s);
  }

  lemma RoundWithinHalf(v: real, s: nat)
    requires -(s as real) / 2.0 <= v <= s as real / 2.0
    requires s > 0 ==> v < s as real / 2.0
    ensures -(s as int) <= 2 * Round(v) <= s
  {
  }

  /** `Math.round(p * spread)`: a one-sided jitter in `[0, spread]`. */
  function ForwardJitter(p: Unit, spread: nat): (d: int)
    ensures 0 <= d <= spread
  {
    MulUnitBounds(p, spread as real);
    RoundWithin(p * spread as real, 0, spread);
    Round(p * spread as real)
  }

  lemma MulUnitBounds(p: Unit, s: real)
    requires s >= 0.0
    ensures 0.0 <= p * s <= s
    ensures s > 0.0 ==> p * s < s
  {
    assert p * s <= 1.0 * s;
    if s > 0.0 {
      assert p * s < 1.0 * s;
    }
  }

  /** A fraction in `[0, 1]` scales a non-negative length into `[0, length]`. */
  lemma MulFractionBounds(t: real, d: real)
    requires 0.0 <= t <= 1.0 && d >= 0.0
    ensures 0.0 <= t * d <= d
  {
    assert t * d <= 1.0 * d;
  }

  /** Sign and unit-range facts about a quotient by a positive real. */
  lemma DivisionBounds(a: real, b: real)
    requires b > 0.0
    ensures (a / b) * b == a
    ensures a <= 0.0 ==> a / b <= 0.0
    ensures a >= 0.0 ==> a / b >= 0.0
    ensures a > 0.0 ==> a / b > 0.0
    ensures a >= b ==> a / b >= 1.0
    ensures a <= b ==> a / b <= 1.0
  {
  }
}

=== FILE: floor_placement.dfy ===
/** The ground canvas placement (`FloorElements.tsx`, `compute`): trees spread
    across the band of padding 20, jittered, spaced, clamped and re-anchored
    on the foreground contour at their final `x`, decluttered, and sorted by
    the bottom of their box for drawing and hit-testing. */
module FloorPlacement {
  import opened Common
  import opened Sequences
  import opened Scene
  import opened Records
  import opened Passes
  import Bounds

  /** Anchor fraction per tree picture. */
  const AnchorMap: map<string, real> := map["tree" := 0.88, "tree2" := 0.9, "tree3" := 0.87]

  /** `anchorMap[typeKey] ?? 0.9` */
  function AnchorFor(typeKey: string): (a: real)
    ensures typeKey == "tree" ==> a == 0.88
    ensures typeKey == "tree2" ==> a == 0.9
    ensures typeKey == "tree3" ==> a == 0.87
    ensures typeKey !in {"tree", "tree2", "tree3"} ==> a == 0.9
  {
    if typeKey in AnchorMap then AnchorMap[typeKey] else 0.9
  }

  /** The record built for the `index`-th ground achievement: jittered at most
      30 pixels either side of its spread position, foot on the contour at
      the jittered `x`. (The vertical jitter the source computes is never used.) */
  function MakeRecord(env: Env, a: Achievement, index: nat, count: nat,
                      minX: int, maxX: int, prng: int -> Unit): (t: TreeRecord)
    requires minX <= maxX && index < count
    ensures t.id == a.id && t.achievement == a
    ensures var baseX := EvenSpreadX(minX, maxX, index, count);
            baseX - 30 <= t.x <= baseX + 30
    ensures t.y == Bounds.GetTopPxForeground(env, t.x as real)
    ensures t.w == 90 && t.h == 95
    ensures t.typeKey == TreeKey(index)
    ensures t.anchorY == Some(AnchorFor(TreeKey(index)))
  {
    var baseX := EvenSpreadX(minX, maxX, index, count);
    var x := baseX + CentredJitter(prng(a.id), 60);
    var baseY := Bounds.GetTopPxForeground(env, x as real);
    var typeKey := TreeKey(index);
    TreeRecord(a.id, x, baseY, 90, 95, a, typeKey, Some(AnchorFor(typeKey)))
  }

  /** The clamp loop of this canvas: `x` into `[minX, maxX]` and `y` re-read
      from the contour at the clamped `x`. */
  method ClampAndAnchor(env: Env, s: seq<TreeRecord>, minX: int, maxX: int) returns (r: seq<TreeRecord>)
    requires minX <= maxX
    ensures r == AnchorAll(env, s, minX, maxX)
    ensures |r| == |s|
    ensures forall i :: 0 <= i < |s| ==> r[i] == s[i].(x := r[i].x, y := r[i].y)
    ensures forall i :: 0 <= i < |s| ==> r[i].x == Clamp(s[i].x, minX, maxX)
    ensures forall i :: 0 <= i < |s| ==> minX <= r[i].x <= maxX
    ensures forall i :: 0 <= i < |s| ==> r[i].y == Bounds.GetTopPxForeground(env, r[i].x as real)
  {
    r := s;
    var i := 0;
    while i < |r|
      invariant 0 <= i <= |s|
      invariant |r| == |s|
      invariant forall k :: 0 <= k < |s| ==> r[k] == s[k].(x := r[k].x, y := r[k].y)
      invariant forall k :: i <= k < |s| ==> r[k] == s[k]
      invariant forall k :: 0 <= k < i ==> r[k].x == Clamp(s[k].x, minX, maxX)
      invariant forall k :: 0 <= k < i ==> r[k].y == Bounds.GetTopPxForeground(env, r[k].x as real)
    {
      var x := Clamp(r[i].x, minX, maxX);
      r := r[i := r[i].(x := x, y := Bounds.GetTopPxForeground(env, x as real))];
      i := i + 1;
    }
  }

  /** The reference for the clamp loop of this canvas: every `x` clamped into
      `[minX, maxX]`, every `y` the contour at the clamped `x`. */
  function AnchorAll(env: Env, s: seq<TreeRecord>, minX: int, maxX: int): (r: seq<TreeRecord>)
    ensures |r| == |s|
  {
    seq(|s|, i requires 0 <= i < |s| =>
      var x := Clamp(s[i].x, minX, maxX);
      s[i].(x := x, y := Bounds.GetTopPxForeground(env, x as real)))
  }

  function ByX(t: TreeRecord): int { t.x }
  /** Depth key: the bottom of the tree's box. */
  function ByBottom(t: TreeRecord): int { t.y + t.h }

  /** What holds of every tree the pass hands to the canvas. */
  predicate Placed(env: Env, b: Bounds.XBounds, ground: seq<Achievement>, t: TreeRecord) {
    var g := Bounds.GetTopPxForeground(env, t.x as real);
    && b.minX <= t.x <= b.maxX
    && g <= t.y <= g + 2 * Bounds.TreeMaxVerticalNudge && NudgedBy(t.y - g, Bounds.TreeMaxVerticalNudge)
    && t.achievement in ground && t.w == 90 && t.h == 95
  }

  /** The records of the ground achievements in their original order. */
  function InitialRecords(env: Env, ground: seq<Achievement>, b: Bounds.XBounds, prng: int -> Unit)
    : (rs: seq<TreeRecord>)
    requires b.minX <= b.maxX
    ensures |rs| == |ground|
    ensures AchievementsOf(rs) == ground
    ensures forall k :: 0 <= k < |rs| ==> rs[k].achievement == ground[k] && rs[k].w == 90 && rs[k].h == 95
  {
    seq(|ground|, i requires 0 <= i < |ground| =>
      MakeRecord(env, ground[i], i, |ground|, b.minX, b.maxX, prng))
  }

  /** One record followed through spacing, clamping with re-anchoring, and
      the nudge ends up placed. */
  lemma StagesPlace(env: Env, b: Bounds.XBounds, ground: seq<Achievement>,
                    s: TreeRecord, spaced: TreeRecord, anchored: TreeRecord, nudged: TreeRecord)
    requires s.achievement in ground && s.w == 90 && s.h == 95
    requires spaced == s.(x := spaced.x)
    requires anchored == spaced.(x := anchored.x, y := anchored.y)
    requires b.minX <= anchored.x <= b.maxX
    requires anchored.y == Bounds.GetTopPxForeground(env, anchored.x as real)
    requires nudged == anchored.(y := nudged.y)
    requires NudgedBy(nudged.y - anchored.y, Bounds.TreeMaxVerticalNudge)
    requires anchored.y <= nudged.y <= anchored.y + 2 * Bounds.TreeMaxVerticalNudge
    ensures Placed(env, b, ground, nudged)
  {
  }

  /** Reordering keeps every record a 90 by 95 tree of a ground achievement. */
  lemma SortedFromGround(ground: seq<Achievement>, records: seq<TreeRecord>, sorted: seq<TreeRecord>)
    requires |records| == |ground|
    requires forall k :: 0 <= k < |records| ==>
      records[k].achievement == ground[k] && records[k].w == 90 && records[k].h == 95
    requires multiset(sorted) == multiset(records)
    ensures forall k :: 0 <= k < |sorted| ==>
      sorted[k].achievement in ground && sorted[k].w == 90 && sorted[k].h == 95
  {
    forall k | 0 <= k < |sorted|
      ensures sorted[k].achievement in ground && sorted[k].w == 90 && sorted[k].h == 95
    {
      assert sorted[k] in multiset(records);
    }
  }

  /** The pass-level form of `StagesPlace`: every record of the list followed
      through the three passes is placed. */
  lemma AllStagesPlace(env: Env, b: Bounds.XBounds, ground: seq<Achievement>, sorted: seq<TreeRecord>,
                       spaced: seq<TreeRecord>, anchored: seq<TreeRecord>, nudged: seq<TreeRecord>)
    requires forall k :: 0 <= k < |sorted| ==>
      sorted[k].achievement in ground && sorted[k].w == 90 && sorted[k].h == 95
    requires |spaced| == |sorted| && |anchored| == |sorted| && |nudged| == |sorted|
    requires forall k :: 0 <= k < |sorted| ==> spaced[k] == sorted[k].(x := spaced[k].x)
    requires forall k :: 0 <= k < |sorted| ==>
      && anchored[k] == spaced[k].(x := anchored[k].x, y := anchored[k].y)
      && b.minX <= anchored[k].x <= b.maxX
      && anchored[k].y == Bounds.GetTopPxForeground(env, anchored[k].x as real)
    requires forall k :: 0 <= k < |sorted| ==>
      && nudged[k] == anchored[k].(y := nudged[k].y)
      && NudgedBy(nudged[k].y - anchored[k].y, Bounds.TreeMaxVerticalNudge)
      && anchored[k].y <= nudged[k].y <= anchored[k].y + 2 * Bounds.TreeMaxVerticalNudge
    ensures forall k :: 0 <= k < |nudged| ==> Placed(env, b, ground, nudged[k])
  {
    forall k | 0 <= k < |nudged|
      ensures Placed(env, b, ground, nudged[k])
    {
      StagesPlace(env, b, ground, sorted[k], spaced[k], anchored[k], nudged[k]);
    }
  }

  /** The list this canvas hands to the depth sort: the initial records
      sorted by `x`, spaced by 20, clamped into the band and re-anchored on
      the contour, then nudged with no hitbox lift. */
  function ArrangedRecords(env: Env, ground: seq<Achievement>, b: Bounds.XBounds, prng: int -> Unit)
    : seq<TreeRecord>
    requires b.minX <= b.maxX
  {
    var sorted := SortBy(InitialRecords(env, ground, b, prng), ByX);
    var spaced := SpaceFrom(sorted, 1, Bounds.TreeMinSpacing);
    var anchored := AnchorAll(env, spaced, b.minX, b.maxX);
    NudgeFrom(anchored, 0, 0, Bounds.TreeMaxVerticalNudge)
  }

  /** Sorting by `x`, spacing by 20, clamping into the band with
      re-anchoring, and the nudge: one placed record per ground achievement. */
  method Arrange(env: Env, ground: seq<Achievement>, b: Bounds.XBounds, prng: int -> Unit)
    returns (nudged: seq<TreeRecord>)
    requires b.minX <= b.maxX
    ensures |nudged| == |ground|
    ensures forall k :: 0 <= k < |nudged| ==> Placed(env, b, ground, nudged[k])
    ensures multiset(AchievementsOf(nudged)) == multiset(ground)
    ensures nudged == ArrangedRecords(env, ground, b, prng)
  {
    var records := InitialRecords(env, ground, b, prng);
    var sorted := SortBy(records, ByX);
    SortedFromGround(ground, records, sorted);
    var spaced := SpacingPass(sorted, Bounds.TreeMinSpacing);
    var anchored := ClampAndAnchor(env, spaced, b.minX, b.maxX);
    nudged := NudgePass(anchored, 0, Bounds.TreeMaxVerticalNudge);
    AllStagesPlace(env, b, ground, sorted, spaced, anchored, nudged);
    KeptAchievements(records, sorted, nudged);
  }

  /** The whole `compute` pass, up to the list that is drawn and hit-tested:
      every ground achievement is drawn exactly once, placed, and the list
      runs from the highest box bottom to the lowest. */
  method Compute(env: Env, achievements: seq<Achievement>, prng: int -> Unit)
    returns (drawn: seq<TreeRecord>)
    ensures forall t :: t in drawn ==>
      Placed(env, Bounds.GetSkyXBounds(env.width, Bounds.GroundPadding), GroundAchievements(achievements), t)
    ensures |drawn| == |GroundAchievements(achievements)|
    ensures multiset(AchievementsOf(drawn)) == multiset(GroundAchievements(achievements))
    ensures SortedBy(drawn, ByBottom)
    ensures drawn == SortBy(ArrangedRecords(env, GroundAchievements(achievements),
                                            Bounds.GetSkyXBounds(env.width, Bounds.GroundPadding), prng), ByBottom)
  {
    var b := Bounds.GetSkyXBounds(env.width, Bounds.GroundPadding);
    var ground := GroundAchievements(achievements);
    var nudged := Arrange(env, ground, b, prng);
    drawn := SortBy(nudged, ByBottom);
    forall t | t in drawn
      ensures Placed(env, b, ground, t)
    {
      assert t in multiset(nudged);
    }
    MapPermutation(nudged, drawn, AchievementOf);
  }
}

=== FILE: legacy_floor_placement.dfy ===
/** The older ground canvas (`Floor/CanvasElements.tsx`): trees spread across
    the full width, each lowered by a random amount below the contour at its
    spread position, spaced, clamped (without re-anchoring), nudged with a
    hitbox lifted by 8 pixels, and sorted by foot for drawing. */
module LegacyFloorPlacement {
  import opened Common
  import opened Sequences
  import opened Scene
  import opened Records
  import opened Passes
  import LegacyTerrain
  import Bounds

  /** The hitbox of this canvas starts 8 pixels lower than the tree's box. */
  const HitboxLift: int := 8

  /** The record built for the `index`-th ground achievement. Its foot is
      anchored to the contour at the spread position `baseX`, not at the
      jittered `x`: 0 to 70 pixels lower, plus or minus 10. */
  function MakeRecord(env: Env, a: Achievement, index: nat, count: nat,
                      minX: int, maxX: int, prng: int -> Unit): (t: TreeRecord)
    requires minX <= maxX && index < count
    ensures t.id == a.id && t.achievement == a
    ensures var baseX := EvenSpreadX(minX, maxX, index, count);
            && baseX - 30 <= t.x <= baseX + 30
            && var baseY := LegacyTerrain.GetTopPxForeground(env, baseX as real);
               baseY - 10 <= t.y <= baseY + 80
    ensures t.w == 90 && t.h == 95
    ensures t.typeKey == TreeKey(index)
    ensures t.anchorY == None
  {
    var baseX := EvenSpreadX(minX, maxX, index, count);
    var x := baseX + CentredJitter(prng(a.id), 60);
    var baseY := LegacyTerrain.GetTopPxForeground(env, baseX as real);
    var y := baseY + ForwardJitter(prng(a.id + 1), 70) + CentredJitter(prng(a.id + 2), 20);
    TreeRecord(a.id, x, y, 90, 95, a, TreeKey(index), None)
  }

  /** The achievement's spread position, when it is the `i`-th ground one. */
  function SpreadX(ground: seq<Achievement>, b: Bounds.XBounds, i: nat): int
    requires b.minX <= b.maxX && i < |ground|
  {
    EvenSpreadX(b.minX, b.maxX, i, |ground|)
  }

  /** What holds of every tree this canvas draws: inside the band, and its
      foot between 10 pixels above and 90 below the contour at the spread
      position of the achievement it stands for. */
  predicate Placed(env: Env, b: Bounds.XBounds, ground: seq<Achievement>, t: TreeRecord)
    requires b.minX <= b.maxX
  {
    && b.minX <= t.x <= b.maxX
    && t.w == 90 && t.h == 95
    && exists i :: 0 <= i < |ground| && ground[i] == t.achievement &&
         var baseY := LegacyTerrain.GetTopPxForeground(env, SpreadX(ground, b, i) as real);
         baseY - 10 <= t.y <= baseY + 80 + 2 * LegacyTerrain.TreeMaxVerticalNudge
  }

  /** The records before any pass, with the index each one was built from. */
  function InitialRecords(env: Env, ground: seq<Achievement>, b: Bounds.XBounds, prng: int -> Unit)
    : (rs: seq<TreeRecord>)
    requires b.minX <= b.maxX
    ensures |rs| == |ground|
    ensures AchievementsOf(rs) == ground
    ensures forall k :: 0 <= k < |rs| ==>
      && rs[k].achievement == ground[k] && rs[k].w == 90 && rs[k].h == 95
      && var baseY := LegacyTerrain.GetTopPxForeground(env, SpreadX(ground, b, k) as real);
         baseY - 10 <= rs[k].y <= baseY + 80
  {
    seq(|ground|, i requires 0 <= i < |ground| =>
      MakeRecord(env, ground[i], i, |ground|, b.minX, b.maxX, prng))
  }

  /** Before the nudge: the bound on the foot without the nudge's share. */
  predicate Built(env: Env, b: Bounds.XBounds, ground: seq<Achievement>, t: TreeRecord)
    requires b.minX <= b.maxX
  {
    && t.w == 90 && t.h == 95
    && exists i :: 0 <= i < |ground| && ground[i] == t.achievement &&
         var baseY := LegacyTerrain.GetTopPxForeground(env, SpreadX(ground, b, i) as real);
         baseY - 10 <= t.y <= baseY + 80
  }

  /** A record that was built, then moved sideways into the band and nudged
      down by at most two steps, is placed. */
  lemma StagesPlace(env: Env, b: Bounds.XBounds, ground: seq<Achievement>,
                    s: TreeRecord, clamped: TreeRecord, nudged: TreeRecord)
    requires b.minX <= b.maxX
    requires Built(env, b, ground, s)
    requires clamped == s.(x := clamped.x) && b.minX <= clamped.x <= b.maxX
    requires nudged == clamped.(y := nudged.y)
    requires clamped.y <= nudged.y <= clamped.y + 2 * LegacyTerrain.TreeMaxVerticalNudge
    ensures Placed(env, b, ground, nudged)
  {
    var i :| 0 <= i < |ground| && ground[i] == s.achievement &&
      var baseY := LegacyTerrain.GetTopPxForeground(env, SpreadX(ground, b, i) as real);
      baseY - 10 <= s.y <= baseY + 80;
    assert ground[i] == nudged.achievement;
  }

  /** Every initial record is built and carries no anchor. */
  lemma InitialBuilt(env: Env, ground: seq<Achievement>, b: Bounds.XBounds, prng: int -> Unit,
                     records: seq<TreeRecord>)
    requires b.minX <= b.maxX
    requires records == InitialRecords(env, ground, b, prng)
    ensures forall k :: 0 <= k < |records| ==> Built(env, b, ground, records[k]) && records[k].anchorY == None
  {
    forall k | 0 <= k < |records|
      ensures Built(env, b, ground, records[k]) && records[k].anchorY == None
    {
      assert ground[k] == records[k].achievement;
    }
  }

  /** Reordering keeps every record built and anchor-free. */
  lemma SortedBuilt(env: Env, ground: seq<Achievement>, b: Bounds.XBounds,
                    records: seq<TreeRecord>, sorted: seq<TreeRecord>)
    requires b.minX <= b.maxX
    requires forall k :: 0 <= k < |records| ==> Built(env, b, ground, records[k]) && records[k].anchorY == None
    requires multiset(sorted) == multiset(records)
    ensures forall k :: 0 <= k < |sorted| ==> Built(env, b, ground, sorted[k]) && sorted[k].anchorY == None
  {
    forall k | 0 <= k < |sorted|
      ensures Built(env, b, ground, sorted[k]) && sorted[k].anchorY == None
    {
      assert sorted[k] in multiset(records);
    }
  }

  /** Every record through the spacing, clamp and nudge passes is placed. */
  lemma AllStagesPlace(env: Env, b: Bounds.XBounds, ground: seq<Achievement>, sorted: seq<TreeRecord>,
                       spaced: seq<TreeRecord>, clamped: seq<TreeRecord>, nudged: seq<TreeRecord>)
    requires b.minX <= b.maxX
    requires forall k :: 0 <= k < |sorted| ==> Built(env, b, ground, sorted[k]) && sorted[k].anchorY == None
    requires |spaced| == |sorted| && |clamped| == |sorted| && |nudged| == |sorted|
    requires forall k :: 0 <= k < |sorted| ==> spaced[k] == sorted[k].(x := spaced[k].x)
    requires forall k :: 0 <= k < |sorted| ==>
      clamped[k] == spaced[k].(x := clamped[k].x) && b.minX <= clamped[k].x <= b.maxX
    requires forall k :: 0 <= k < |sorted| ==>
      && nudged[k] == clamped[k].(y := nudged[k].y)
      && clamped[k].y <= nudged[k].y <= clamped[k].y + 2 * LegacyTerrain.TreeMaxVerticalNudge
    ensures forall k :: 0 <= k < |nudged| ==> Placed(env, b, ground, nudged[k]) && nudged[k].anchorY == None
  {
    forall k | 0 <= k < |nudged|
      ensures Placed(env, b, ground, nudged[k]) && nudged[k].anchorY == None
    {
      assert clamped[k] == sorted[k].(x := clamped[k].x);
      StagesPlace(env, b, ground, sorted[k], clamped[k], nudged[k]);
    }
  }

  function ByX(t: TreeRecord): int { t.x }
  /** This canvas orders by the foot alone. */
  function ByFoot(t: TreeRecord): int { t.y }

  /** The list this canvas hands to the foot sort: the initial records
      sorted by `x`, spaced by 20, clamped into the band (the foot stays
      where it was), then nudged with the hitbox lifted by 8. */
  function ArrangedRecords(env: Env, ground: seq<Achievement>, b: Bounds.XBounds, prng: int -> Unit)
    : seq<TreeRecord>
    requires b.minX <= b.maxX
  {
    var sorted := SortBy(InitialRecords(env, ground, b, prng), ByX);
    var spaced := SpaceFrom(sorted, 1, LegacyTerrain.TreeMinSpacing);
    var clamped := ClampAll(spaced, b.minX, b.maxX);
    NudgeFrom(clamped, 0, HitboxLift, LegacyTerrain.TreeMaxVerticalNudge)
  }

  /** Sorting by `x`, spacing by 20, clamping into the band and the nudge
      with the hit-box lift: one placed record per ground achievement. */
  method Arrange(env: Env, ground: seq<Achievement>, b: Bounds.XBounds, prng: int -> Unit)
    returns (nudged: seq<TreeRecord>)
    requires b.minX <= b.maxX
    ensures |nudged| == |ground|
    ensures forall k :: 0 <= k < |nudged| ==> Placed(env, b, ground, nudged[k]) && nudged[k].anchorY == None
    ensures multiset(AchievementsOf(nudged)) == multiset(ground)
    ensures nudged == ArrangedRecords(env, ground, b, prng)
  {
    var records := InitialRecords(env, ground, b, prng);
    InitialBuilt(env, ground, b, prng, records);
    var sorted := SortBy(records, ByX);
    SortedBuilt(env, ground, b, records, sorted);
    var spaced := SpacingPass(sorted, LegacyTerrain.TreeMinSpacing);
    var clamped := ClampPass(spaced, b.minX, b.maxX);
    nudged := NudgePass(clamped, HitboxLift, LegacyTerrain.TreeMaxVerticalNudge);
    AllStagesPlace(env, b, ground, sorted, spaced, clamped, nudged);
    KeptAchievements(records, sorted, nudged);
  }

  /** The whole `compute` pass: every ground achievement is drawn exactly
      once, placed, without an anchor, and the list runs from the highest
      foot to the lowest. */
  method Compute(env: Env, achievements: seq<Achievement>, prng: int -> Unit)
    returns (drawn: seq<TreeRecord>)
    ensures var b := LegacyTerrain.GetSkyXBounds(env.width);
      forall t :: t in drawn ==> Placed(env, b, GroundAchievements(achievements), t)
    ensures |drawn| == |GroundAchievements(achievements)|
    ensures multiset(AchievementsOf(drawn)) == multiset(GroundAchievements(achievements))
    ensures forall t :: t in drawn ==> t.anchorY == None
    ensures SortedBy(drawn, ByFoot)
    ensures drawn == SortBy(ArrangedRecords(env, GroundAchievements(achievements),
                                            LegacyTerrain.GetSkyXBounds(env.width), prng), ByFoot)
  {
    var b := LegacyTerrain.GetSkyXBounds(env.width);
    var ground := GroundAchievements(achievements);
    var nudged := Arrange(env, ground, b, prng);
    drawn := SortBy(nudged, ByFoot);
    forall t | t in drawn
      ensures Placed(env, b, ground, t) && t.anchorY == None
    {
      assert t in multiset(nudged);
    }
    MapPermutation(nudged, drawn, AchievementOf);
  }
}

=== FILE: legacy_terrain.dfy ===
/** The older terrain query layer (`src/pages/Home/utils/terrain.ts`). Its
    queries are those of `Bounds` except for the defaults: horizontal padding 0,
    sky margin 20, paths rebuilt on every call, and a `canPlaceInSky` whose
    lower bound is row 0 instead of row 60. */
module LegacyTerrain {
  import opened Common
  import opened Scene
  import Bounds

  const GroundPadding: int := 0
  const SkyPadding: int := GroundPadding
  const TreeMinSpacing: int := 20
  const TreeMaxVerticalNudge: int := 5
  const SkyMargin: int := 28
  const SkyMinY: int := 8

  /** The paths `isGround` rebuilds on each call: every range scaled with the
      same formulas as `Bounds`, each bottom-aligned to the viewport. */
  function ScaledPaths(env: Env): (paths: seq<ScaledPath>)
    ensures |paths| == |Mountains|
    ensures forall i :: 0 <= i < |paths| ==>
      && paths[i].region == Mountains[i]
      && MapY(paths[i].transform, BoxHeight(Mountains[i]) as real) == env.height as real
      && MapX(paths[i].transform, 1000.0) == env.width as real
    ensures paths[ForegroundIndex].transform.offsetY == env.height - Round(env.height as real / 3.0)
    ensures forall i :: 0 <= i < ForegroundIndex ==>
      paths[i].transform.offsetY == env.height - Round(env.height as real / 2.0)
  {
    ScaleAll(env.width, env.height)
  }

  /** `isGround`: some freshly scaled range contains the point; false without
      a 2D context. */
  predicate IsGround(env: Env, x: real, y: real)
  {
    env.hasContext && AnyContains(env, ScaledPaths(env), x, y, 0)
  }

  predicate IsSky(env: Env, x: real, y: real)
  {
    !IsGround(env, x, y)
  }

  /** This file rebuilds the paths on each call, which is what the corrected,
      viewport-keyed queries of `Bounds` do, so the two agree. */
  lemma GroundAgreesWithBounds(env: Env, x: real, y: real)
    ensures IsGround(env, x, y) <==> Bounds.IsGround(env, x, y)
    ensures IsSky(env, x, y) <==> Bounds.IsSky(env, x, y)
  {
  }

  /** The browser of `StaleAnswerAfterResize`: a `w2` by `h2` viewport in
      which exactly the paths scaled to `w1` by `h1` contain every point. */
  function OldPathsBrowser(w1: nat, h1: nat, w2: nat, h2: nat): Env {
    Env(w2, h2, true, (p: ScaledPath, x: real, y: real) => p in ScaleAll(w1, h1))
  }

  /** After a resize from width `w1` to `w2`, `isGround` of `bounds.ts` as
      written and this file's `isGround` can disagree: for a point inside the
      old paths but outside the current ones, the cached query says ground
      while the rebuilt one says sky. */
  lemma StaleAnswerAfterResize(w1: nat, h1: nat, w2: nat, h2: nat)
    requires w1 != w2
    ensures var env := OldPathsBrowser(w1, h1, w2, h2);
            var cache := Bounds.GetScaledPaths(Bounds.Empty, w1, h1).1;
            Bounds.IsGroundAsWritten(env, cache, 0.0, 0.0).0 && !IsGround(env, 0.0, 0.0)
  {
    var env := OldPathsBrowser(w1, h1, w2, h2);
    var before := ScaleAll(w1, h1);
    var cur := ScaleAll(w2, h2);
    assert env.inPath(before[0], 0.0, 0.0);
    forall i | 0 <= i < |cur|
      ensures !InPath(env, cur[i], 0.0, 0.0)
    {
      assert cur[i] !in before;
    }
  }

  /** `getBottomPx`: the lowest row of the column inside any range, else `h - 50`. */
  function GetBottomPx(env: Env, x: real): (r: int)
    ensures var h := env.height as int;
      || (0 <= r < h && IsGround(env, x, r as real) &&
          forall y :: r < y < h ==> !Bounds.GroundRow(env, x, y))
      || (r == h - 50 && forall y :: 0 <= y < h ==> !Bounds.GroundRow(env, x, y))
  {
    Bounds.GetBottomPx(env, x)
  }

  /** `getTopPxForeground`: the first row of the column inside the foreground,
      else 0. */
  function GetTopPxForeground(env: Env, x: real): (r: int)
    ensures var h := env.height as int;
      || (0 <= r < h && Bounds.ForegroundRow(env, x, r) &&
          forall y :: 0 <= y < r ==> !Bounds.ForegroundRow(env, x, y))
      || (r == 0 && forall y :: 0 <= y < h ==> !Bounds.ForegroundRow(env, x, y))
  {
    Bounds.GetTopPxForeground(env, x)
  }

  /** `getSkyMaxY`: `margin` rows above the foreground contour, never
      negative; the same rule as the current one. */
  function GetSkyMaxY(env: Env, x: real, margin: int): (r: int)
    ensures r >= 0
    ensures r >= GetTopPxForeground(env, x) - margin
    ensures r == 0 || r == GetTopPxForeground(env, x) - margin
  {
    Bounds.GetSkyMaxY(env, x, margin)
  }

  /** `getSkyYBounds` with this file's defaults (margin 28, top row 8): the
      same band as the current file gives with its own defaults. */
  function GetSkyYBounds(env: Env, x: real): (b: Bounds.YBounds)
    ensures b == Bounds.GetSkyYBounds(env, x, Bounds.SkyMargin, Bounds.SkyMinY)
    ensures b.minY == 8 && b.maxY >= 0
    ensures b.maxY == 0 || b.maxY == GetTopPxForeground(env, x) - 28
  {
    Bounds.YBounds(SkyMinY, GetSkyMaxY(env, x, SkyMargin))
  }

  /** `getSkyXBounds` with this file's default padding of 0: the band starts at
      column 0 and is at least one pixel wide. */
  function GetSkyXBounds(width: nat): (b: Bounds.XBounds)
    ensures b.minX == 0
    ensures b.maxX >= 1
    ensures b.viewportWidth == Bounds.ViewportWidth(width)
    ensures b.maxX == b.viewportWidth
  {
    Bounds.GetSkyXBounds(width, SkyPadding)
  }

  /** `canPlaceInSky`: inside `[0, getSkyMaxY(x, margin)]` and outside every range. */
  predicate CanPlaceInSky(env: Env, x: real, y: real, margin: int)
  {
    var maxY := GetSkyMaxY(env, x, margin);
    if y < 0.0 || y > maxY as real then false
    else IsSky(env, x, y)
  }

  /** The current `canPlaceInSky` accepts a subset of what this one accepts:
      they agree from row 60 down, and above row 60 only this one can accept. */
  lemma {:induction false} CurrentSkyCheckIsStricter(env: Env, x: real, y: real, margin: int)
    ensures Bounds.CanPlaceInSky(env, x, y, margin) ==> CanPlaceInSky(env, x, y, margin)
    ensures y >= 60.0 ==> (Bounds.CanPlaceInSky(env, x, y, margin) <==> CanPlaceInSky(env, x, y, margin))
    ensures y < 60.0 ==> !Bounds.CanPlaceInSky(env, x, y, margin)
  {
    GroundAgreesWithBounds(env, x, y);
  }

  /** `getSkyHeightY`: `round(h * fraction)` kept inside `[0, h]`, `h` defaulting to 800. */
  function GetSkyHeightY(height: nat, fraction: real): (r: int)
    ensures var h := Bounds.ViewportHeight(height);
      && 0 <= r <= h
      && (0.0 <= h as real * fraction <= h as real ==> r == Round(h as real * fraction))
    ensures height == 0 ==> r == Bounds.GetSkyHeightY(Bounds.DefaultHeight, fraction)
  {
    Bounds.GetSkyHeightY(height, fraction)
  }

  /** `getScaleForY`: within `[minScale, maxScale]`, the midpoint when the
      perspective lines coincide. */
  function GetScaleForY(height: nat, y: real, minScale: real, maxScale: real): (s: real)
    ensures var ys := Bounds.GetPerspectiveLinesY(height);
            var top := Bounds.SeqMin(ys);
            var bottom := Bounds.SeqMax(ys);
      && (bottom == top ==> s == (minScale + maxScale) / 2.0)
      && (bottom != top && minScale <= maxScale ==> minScale <= s <= maxScale)
      && (bottom != top && y <= top as real ==> s == minScale)
      && (bottom != top && y >= bottom as real ==> s == maxScale)
  {
    Bounds.GetScaleForY(height, y, minScale, maxScale)
  }
}

=== FILE: original_placement.dfy ===
/** The first canvas (`Elements/CanvasElements.tsx`): every achievement, sky
    ones included, becomes a tree spread across the band of padding 40, built
    exactly as in the older ground canvas, and drawn and hit-tested in the
    order the achievements come in; no spacing, clamping or nudging. */
module OriginalPlacement {
  import opened Common
  import opened Scene
  import opened Records
  import opened Passes
  import LegacyTerrain
  import LegacyFloorPlacement
  import Bounds

  const Padding: int := 40

  /** `minX = 40`, `maxX = max((innerWidth || 1200) - 40, 41)`. */
  function Band(width: nat): (b: Bounds.XBounds)
    ensures b.minX == Padding && b.maxX >= Padding + 1
    ensures b.maxX == Max(Bounds.ViewportWidth(width) - Padding, Padding + 1)
  {
    Bounds.GetSkyXBounds(width, Padding)
  }

  /** The records in achievement order. Each tree lies within 30 pixels of its
      spread position (so possibly up to 30 pixels outside the band) and its
      foot between 10 pixels above and 80 below the contour there. */
  function Compute(env: Env, achievements: seq<Achievement>, prng: int -> Unit): (rs: seq<TreeRecord>)
    ensures |rs| == |achievements|
    ensures var b := Band(env.width);
      forall k :: 0 <= k < |rs| ==>
        && rs[k].achievement == achievements[k] && rs[k].id == achievements[k].id
        && var baseX := EvenSpreadX(b.minX, b.maxX, k, |rs|);
           && baseX - 30 <= rs[k].x <= baseX + 30
           && var baseY := LegacyTerrain.GetTopPxForeground(env, baseX as real);
              baseY - 10 <= rs[k].y <= baseY + 80
    ensures forall k :: 0 <= k < |rs| ==>
      rs[k].w == 90 && rs[k].h == 95 && rs[k].typeKey == TreeKey(k) && rs[k].anchorY == None
  {
    var b := Band(env.width);
    seq(|achievements|, i requires 0 <= i < |achievements| =>
      LegacyFloorPlacement.MakeRecord(env, achievements[i], i, |achievements|, b.minX, b.maxX, prng))
  }

  /** Every tree stays within 30 pixels of the band: with no clamping pass,
      the jitter may carry it outside by up to that much, and no further. */
  lemma {:induction false} NearBand(env: Env, achievements: seq<Achievement>, prng: int -> Unit, k: nat)
    requires k < |achievements|
    ensures var t := Compute(env, achievements, prng)[k];
            var b := Band(env.width);
            b.minX - 30 <= t.x <= b.maxX + 30
  {
    var b := Band(env.width);
    var baseX := EvenSpreadX(b.minX, b.maxX, k, |achievements|);
    assert b.minX <= baseX <= b.maxX;
  }
}

=== FILE: passes.dfy ===
/** The placement passes shared by the ground and sky canvases: even spread,
    left-to-right minimum spacing, clamping into the horizontal band, and the
    adjacent-pair overlap nudge. */
module Passes {
  import opened Common
  import opened Records

  /** `Math.round(minX + (index / denom) * (maxX - minX))` with
      `denom = max(count - 1, 1)`: indices spread evenly over the band, the
      first at `minX`, the last (of two or more) at `maxX`. */
  function EvenSpreadX(minX: int, maxX: int, index: nat, count: nat): (x: int)
    requires minX <= maxX && index < count
    ensures minX <= x <= maxX
    ensures index == 0 ==> x == minX
    ensures count >= 2 && index == count - 1 ==> x == maxX
    ensures var n := Max(count - 1, 1) as real;
      && ((x - minX) as real - 0.5) * n <= index as real * (maxX - minX) as real
      && index as real * (maxX - minX) as real < ((x - minX) as real + 0.5) * n
  {
    var n := Max(count - 1, 1);
    SpreadEnds(minX, maxX, index, count);
    SpreadNearest(minX, maxX, index, count);
    Round(SpreadExact(minX, maxX, index, n))
  }

  /** The unrounded spread position `minX + (index / n) * (maxX - minX)`. */
  function SpreadExact(minX: int, maxX: int, index: nat, n: nat): real
    requires n >= 1
  {
    minX as real + (index as real / n as real) * (maxX - minX) as real
  }

  /** The rounded spread stays in the band and hits both of its ends. */
  lemma SpreadEnds(minX: int, maxX: int, index: nat, count: nat)
    requires minX <= maxX && index < count
    ensures var x := Round(SpreadExact(minX, maxX, index, Max(count - 1, 1)));
      && minX <= x <= maxX
      && (index == 0 ==> x == minX)
      && (count >= 2 && index == count - 1 ==> x == maxX)
  {
    var denom := Max(count - 1, 1);
    var span := maxX - minX;
    var t := index as real / denom as real;
    var exact := minX as real + t * span as real;
    assert exact == SpreadExact(minX, maxX, index, denom);
    DivisionBounds(index as real, denom as real);
    assert minX <= Round(exact) <= maxX by {
      MulFractionBounds(t, span as real);
      RoundWithin(exact, minX, maxX);
    }
    if index == 0 {
      assert t == 0.0;
      RoundOfInt(minX);
    }
    if count >= 2 && index == count - 1 {
      assert t == 1.0;
      RoundOfInt(maxX);
    }
  }

  /** Scaled by `n`, the rounded spread is within half a step of `index * span`. */
  lemma SpreadNearest(minX: int, maxX: int, index: nat, count: nat)
    requires minX <= maxX && index < count
    ensures var n := Max(count - 1, 1) as real;
      var x := Round(SpreadExact(minX, maxX, index, Max(count - 1, 1)));
      && ((x - minX) as real - 0.5) * n <= index as real * (maxX - minX) as real
      && index as real * (maxX - minX) as real < ((x - minX) as real + 0.5) * n
  {
    var denom := Max(count - 1, 1);
    var t := index as real / denom as real;
    var exact := SpreadExact(minX, maxX, index, denom);
    assert t * denom as real == index as real by {
      DivisionBounds(index as real, denom as real);
    }
    SpreadRounding(Round(exact), minX, index, maxX - minX, denom, t);
  }

  /** `x` rounds `minX + t * span` with `t * n == index`: scaled by `n`,
      `x - minX` is within half a step of `index * span`. */
  lemma SpreadRounding(x: int, minX: int, index: int, span: int, n: int, t: real)
    requires n >= 1 && t * n as real == index as real
    requires x as real - 0.5 <= minX as real + t * span as real < x as real + 0.5
    ensures ((x - minX) as real - 0.5) * n as real <= index as real * span as real
    ensures index as real * span as real < ((x - minX) as real + 0.5) * n as real
  {
    var S := span as real;
    var I := index as real;
    var m := n as real;
    var q := (x - minX) as real;
    ProductIdentity(t, S, m, I);
    ScaleBetween(q - 0.5, t * S, q + 0.5, m, I * S);
  }

  /** With `t * m == I`, scaling `t * S` by `m` gives `I * S`. */
  lemma ProductIdentity(t: real, S: real, m: real, I: real)
    requires t * m == I
    ensures (t * S) * m == I * S
  {
  }

  /** Multiplying by a positive real keeps a half-open interval in order. */
  lemma ScaleBetween(lo: real, e: real, hi: real, m: real, p: real)
    requires lo <= e < hi && m > 0.0 && p == e * m
    ensures lo * m <= p < hi * m
  {
    assert e * m - lo * m == (e - lo) * m;
    assert hi * m - e * m == (hi - e) * m;
  }

  /** All records in ascending `x`, each at least `gap` right of its predecessor. */
  ghost predicate Spaced(s: seq<TreeRecord>, gap: int) {
    forall i :: 1 <= i < |s| ==> s[i].x >= s[i - 1].x + gap
  }

  /** One step of the spacing loop: `cur`, when closer than `gap` to `prev`,
      is pushed right to exactly `gap` from it. */
  function SpaceAfter(prev: TreeRecord, cur: TreeRecord, gap: int): (t: TreeRecord)
    ensures t == cur.(x := t.x)
    ensures t.x == Max(cur.x, prev.x + gap)
  {
    if cur.x - prev.x < gap then cur.(x := prev.x + gap) else cur
  }

  /** The reference for the spacing loop: the step applied at `i`, `i + 1`,
      ... in turn, each against its predecessor as already updated. */
  function SpaceFrom(s: seq<TreeRecord>, i: nat, gap: int): (r: seq<TreeRecord>)
    requires i >= 1
    decreases |s| - i
    ensures |r| == |s|
    ensures forall k :: 0 <= k < i && k < |s| ==> r[k] == s[k]
  {
    if i >= |s| then s
    else SpaceFrom(s[i := SpaceAfter(s[i - 1], s[i], gap)], i + 1, gap)
  }

  /** The spacing loop: scanning left to right, a record closer than `gap` to
      its (already moved) predecessor is pushed right to exactly `gap` from it. */
  method SpacingPass(s: seq<TreeRecord>, gap: int) returns (r: seq<TreeRecord>)
    ensures r == SpaceFrom(s, 1, gap)
    ensures |r| == |s|
    ensures forall i :: 0 <= i < |s| ==> r[i] == s[i].(x := r[i].x)
    ensures Spaced(r, gap)
    ensures forall i :: 0 <= i < |s| ==> r[i].x >= s[i].x
    ensures forall i :: 0 <= i < |s| ==> r[i].x == s[i].x || (i > 0 && r[i].x == r[i - 1].x + gap)
    ensures |s| > 0 ==> r[0] == s[0]
  {
    r := s;
    var i := 1;
    while i < |r|
      invariant SpacedUpTo(s, r, i, gap)
      invariant SpaceFrom(r, i, gap) == SpaceFrom(s, 1, gap)
    {
      SpaceStep(s, r, i, gap);
      r := r[i := SpaceAfter(r[i - 1], r[i], gap)];
      i := i + 1;
    }
  }

  /** What holds after the records before `i` are spaced: only `x` has moved,
      and never left; the records from `i` on are untouched; the finished
      ones are spaced, each either kept or pushed to `gap` from its
      predecessor; the first never moves. */
  ghost predicate SpacedUpTo(s: seq<TreeRecord>, r: seq<TreeRecord>, i: nat, gap: int) {
    && 1 <= i && (i <= |s| || |s| == 0) && |r| == |s|
    && (forall k :: 0 <= k < |s| ==> r[k] == s[k].(x := r[k].x))
    && (forall k :: i <= k < |s| ==> r[k] == s[k])
    && (forall k :: 1 <= k < i && k < |s| ==> r[k].x >= r[k - 1].x + gap)
    && (forall k :: 0 <= k < |s| ==> r[k].x >= s[k].x)
    && (forall k :: 0 <= k < |s| ==> r[k].x == s[k].x || (k > 0 && r[k].x == r[k - 1].x + gap))
    && (|s| > 0 ==> r[0] == s[0])
  }

  lemma SpaceStep(s: seq<TreeRecord>, r: seq<TreeRecord>, i: nat, gap: int)
    requires SpacedUpTo(s, r, i, gap) && i < |r|
    ensures SpacedUpTo(s, r[i := SpaceAfter(r[i - 1], r[i], gap)], i + 1, gap)
  {
    var r' := r[i := SpaceAfter(r[i - 1], r[i], gap)];
    assert r[i] == s[i];
    forall k | 0 <= k < |s|
      ensures r'[k].x == s[k].x || (k > 0 && r'[k].x == r'[k - 1].x + gap)
    {
      if k == i + 1 {
        assert r'[k] == s[k];
      }
    }
  }

  /** The reference for the clamp loop: every `x` clamped into `[minX, maxX]`. */
  function ClampAll(s: seq<TreeRecord>, minX: int, maxX: int): (r: seq<TreeRecord>)
    ensures |r| == |s|
  {
    seq(|s|, i requires 0 <= i < |s| => s[i].(x := Clamp(s[i].x, minX, maxX)))
  }

  /** The clamp loop: every `x` into `[minX, maxX]`, nothing else touched. */
  method ClampPass(s: seq<TreeRecord>, minX: int, maxX: int) returns (r: seq<TreeRecord>)
    requires minX <= maxX
    ensures r == ClampAll(s, minX, maxX)
    ensures |r| == |s|
    ensures forall i :: 0 <= i < |s| ==> r[i] == s[i].(x := r[i].x)
    ensures forall i :: 0 <= i < |s| ==> minX <= r[i].x <= maxX
    ensures forall i :: 0 <= i < |s| ==> minX <= s[i].x <= maxX ==> r[i].x == s[i].x
    ensures forall i :: 0 <= i < |s| ==> s[i].x < minX ==> r[i].x == minX
    ensures forall i :: 0 <= i < |s| ==> s[i].x > maxX ==> r[i].x == maxX
    ensures forall i, j :: 0 <= i < j < |s| && s[i].x <= s[j].x ==> r[i].x <= r[j].x
  {
    r := s;
    var i := 0;
    while i < |r|
      invariant 0 <= i <= |s|
      invariant |r| == |s|
      invariant forall k :: 0 <= k < |s| ==> r[k] == s[k].(x := r[k].x)
      invariant forall k :: i <= k < |s| ==> r[k] == s[k]
      invariant forall k :: 0 <= k < i ==> r[k].x == Clamp(s[k].x, minX, maxX)
    {
      r := r[i := r[i].(x := Clamp(r[i].x, minX, maxX))];
      i := i + 1;
    }
  }

  /** Horizontal overlap of the two boxes `[x - w/2, x + w/2]`, or 0. */
  function OverlapX(a: TreeRecord, b: TreeRecord): (o: real)
    ensures o >= 0.0
    ensures a.w > 0 && b.w > 0 ==>
      (o > 0.0 <==> 2 * (a.x - b.x) < a.w + b.w && 2 * (b.x - a.x) < a.w + b.w)
    ensures a.w >= 0 && b.w >= 0 ==> o <= a.w as real && o <= b.w as real
  {
    var aLeft := a.x as real - a.w as real / 2.0;
    var aRight := aLeft + a.w as real;
    var bLeft := b.x as real - b.w as real / 2.0;
    var bRight := bLeft + b.w as real;
    MaxR(0.0, MinR(aRight, bRight) - MaxR(aLeft, bLeft))
  }

  /** Vertical overlap of the hitboxes `[y - h + lift, y + lift]`, or 0. */
  function OverlapY(a: TreeRecord, b: TreeRecord, lift: int): (o: int)
    ensures o >= 0
    ensures a.h > 0 && b.h > 0 ==> (o > 0 <==> a.y - b.y < a.h && b.y - a.y < b.h)
    ensures a.h >= 0 && b.h >= 0 ==> o <= a.h && o <= b.h
  {
    var aTop := a.y - a.h + lift;
    var aBottom := aTop + a.h;
    var bTop := b.y - b.h + lift;
    var bBottom := bTop + b.h;
    Max(0, Min(aBottom, bBottom) - Max(aTop, bTop))
  }

  /** Shifting both hitboxes by the same `lift` leaves their overlap unchanged,
      so the `+ 8` of the older ground canvas never changes a decision. */
  lemma OverlapIgnoresLift(a: TreeRecord, b: TreeRecord, lift: int)
    ensures OverlapY(a, b, lift) == OverlapY(a, b, 0)
  {
  }

  /** `Math.min(maxNudge, Math.ceil(overlapY / 2))`: the half of the overlap
      rounded up, capped at `maxNudge`. The three bounds below pin it down:
      never above the cap, never above the rounded-up half, and equal to the
      rounded-up half whenever it is below the cap. */
  function NudgeAmount(overlapY: int, maxNudge: int): (d: int)
    ensures d <= maxNudge
    ensures 2 * d <= overlapY + 1
    ensures d == maxNudge || overlapY <= 2 * d
    ensures overlapY > 10 && maxNudge <= 6 ==> d == maxNudge
  {
    Min(maxNudge, (overlapY + 1) / 2)
  }

  /** The overlap test of the pass: both overlaps above 10 pixels. */
  predicate Crowded(a: TreeRecord, b: TreeRecord, lift: int) {
    OverlapX(a, b) > 10.0 && OverlapY(a, b, lift) > 10
  }

  /** One step of the overlap pass on an adjacent pair: when the boxes are
      crowded, the nearer one (larger `y`; `b` on a tie) is pushed down by the
      nudge amount, which is the whole of `maxNudge` for any cap up to 6
      because an overlap above 10 halves to at least 6; otherwise nothing
      changes. */
  function NudgePair(a: TreeRecord, b: TreeRecord, lift: int, maxNudge: int): (p: (TreeRecord, TreeRecord))
    ensures p.0 == a.(y := p.0.y) && p.1 == b.(y := p.1.y)
    ensures !Crowded(a, b, lift) ==> p == (a, b)
    ensures Crowded(a, b, lift) ==>
      var d := NudgeAmount(OverlapY(a, b, lift), maxNudge);
      if a.y > b.y then p.0.y == a.y + d && p.1 == b
      else p.0 == a && p.1.y == b.y + d
    ensures Crowded(a, b, lift) && maxNudge <= 6 ==>
      if a.y > b.y then p.0.y == a.y + maxNudge && p.1 == b
      else p.0 == a && p.1.y == b.y + maxNudge
  {
    if Crowded(a, b, lift) then
      var amount := NudgeAmount(OverlapY(a, b, lift), maxNudge);
      if a.y > b.y then (a.(y := a.y + amount), b) else (a, b.(y := b.y + amount))
    else (a, b)
  }

  /** A record's total nudge: none, once, or twice (as the right member of one
      pair and the left member of the next). */
  predicate NudgedBy(d: int, maxNudge: int) {
    d == 0 || d == maxNudge || d == 2 * maxNudge
  }

  /** Reference definition of the overlap pass from pair `(i, i + 1)` on:
      apply `NudgePair` to it, then continue with the next pair on the
      updated list. Records before `i` are already final. */
  function NudgeFrom(s: seq<TreeRecord>, i: nat, lift: int, maxNudge: int): (r: seq<TreeRecord>)
    decreases |s| - i
    ensures |r| == |s|
    ensures forall k :: 0 <= k < i && k < |s| ==> r[k] == s[k]
  {
    if i + 1 >= |s| then s
    else
      var p := NudgePair(s[i], s[i + 1], lift, maxNudge);
      NudgeFrom(s[i := p.0][i + 1 := p.1], i + 1, lift, maxNudge)
  }

  /** What holds after the pairs before `i` are done: only `y` has moved, the
      records after `i` are untouched, and (for a cap up to 6) each finished
      record moved by 0, one cap or two, and record `i` by 0 or one cap. */
  ghost predicate NudgedUpTo(s: seq<TreeRecord>, r: seq<TreeRecord>, i: nat, maxNudge: int) {
    && (|s| == 0 || i < |s|) && |r| == |s|
    && (forall k :: 0 <= k < |s| ==> r[k] == s[k].(y := r[k].y))
    && (forall k :: i < k < |s| ==> r[k] == s[k])
    && (maxNudge <= 6 ==> forall k :: 0 <= k < i && k < |s| ==> NudgedBy(r[k].y - s[k].y, maxNudge))
    && (maxNudge <= 6 && i < |s| ==> r[i].y - s[i].y == 0 || r[i].y - s[i].y == maxNudge)
  }

  lemma NudgeStep(s: seq<TreeRecord>, r: seq<TreeRecord>, i: nat, lift: int, maxNudge: int)
    requires NudgedUpTo(s, r, i, maxNudge) && i + 1 < |r|
    ensures var p := NudgePair(r[i], r[i + 1], lift, maxNudge);
            NudgedUpTo(s, r[i := p.0][i + 1 := p.1], i + 1, maxNudge)
  {
    var p := NudgePair(r[i], r[i + 1], lift, maxNudge);
    var r' := r[i := p.0][i + 1 := p.1];
    assert r[i + 1] == s[i + 1];
    forall k | 0 <= k < |s|
      ensures r'[k] == s[k].(y := r'[k].y)
    {
      if k == i || k == i + 1 {
      } else {
        assert r'[k] == r[k];
      }
    }
  }

  /** The overlap loop over adjacent pairs `(i, i + 1)` from left to right.
      Only `y` moves; with a cap up to 6, by 0, one cap or two caps in total,
      so only downwards for a non-negative cap. The first record is final
      after the first pair. */
  method NudgePass(s: seq<TreeRecord>, lift: int, maxNudge: int) returns (r: seq<TreeRecord>)
    ensures r == NudgeFrom(s, 0, lift, maxNudge)
    ensures |r| == |s|
    ensures forall i :: 0 <= i < |s| ==> r[i] == s[i].(y := r[i].y)
    ensures |s| >= 2 ==> r[0] == NudgePair(s[0], s[1], lift, maxNudge).0
    ensures maxNudge <= 6 ==> forall i :: 0 <= i < |s| ==> NudgedBy(r[i].y - s[i].y, maxNudge)
    ensures 0 <= maxNudge <= 6 ==>
      forall i :: 0 <= i < |s| ==> s[i].y <= r[i].y <= s[i].y + 2 * maxNudge
  {
    r := s;
    var i := 0;
    while i + 1 < |r|
      invariant NudgedUpTo(s, r, i, maxNudge)
      invariant NudgeFrom(r, i, lift, maxNudge) == NudgeFrom(s, 0, lift, maxNudge)
      invariant |s| >= 2 && i >= 1 ==> r[0] == NudgePair(s[0], s[1], lift, maxNudge).0
    {
      NudgeStep(s, r, i, lift, maxNudge);
      var pair := NudgePair(r[i], r[i + 1], lift, maxNudge);
      r := r[i := pair.0][i + 1 := pair.1];
      i := i + 1;
    }
  }
}

=== FILE: picking.dfy ===
/** Pointer handling shared by the canvases (`src/pages/Home/utils/canvasUtils.ts`):
    client to canvas coordinates, and the hit test that finds the element
    under the pointer. */
module Picking {
  import opened Common
  import opened Records

  /** `anchorY` when a record has none. */
  const DefaultAnchor: real := 0.9

  /** `canvas.getBoundingClientRect()` */
  datatype ClientRect = ClientRect(left: real, top: real, right: real, bottom: real)

  /** `getMousePos`: the pointer relative to the canvas's top-left corner. */
  function GetMousePos(rect: ClientRect, clientX: real, clientY: real): (p: Pt)
    ensures p.x + rect.left == clientX && p.y + rect.top == clientY
    ensures rect.left <= clientX <= rect.right ==> 0.0 <= p.x <= rect.right - rect.left
    ensures rect.top <= clientY <= rect.bottom ==> 0.0 <= p.y <= rect.bottom - rect.top
  {
    Pt(clientX - rect.left, clientY - rect.top)
  }

  /** The box the hit test uses for a record: `w` wide centred on `x`, `h`
      high, starting `anchor * h` above the foot. */
  datatype Box = Box(left: real, right: real, top: real, bottom: real)

  function HitBox(t: TreeRecord): (b: Box)
    ensures b.right - b.left == t.w as real
    ensures b.left + b.right == 2.0 * t.x as real
    ensures b.bottom - b.top == t.h as real
    ensures b.top == t.y as real - t.h as real * t.anchorY.GetOr(DefaultAnchor)
  {
    var anchor := t.anchorY.GetOr(DefaultAnchor);
    var top := t.y as real - t.h as real * anchor;
    Box(t.x as real - t.w as real / 2.0, t.x as real + t.w as real / 2.0, top, top + t.h as real)
  }

  /** The point lies in the record's box, edges included. */
  predicate Hits(t: TreeRecord, x: real, y: real) {
    var b := HitBox(t);
    b.left <= x <= b.right && b.top <= y <= b.bottom
  }

  /** With a non-negative size and an anchor inside `[0, 1]`, a record's own
      foot is inside its box. */
  lemma FootIsHit(t: TreeRecord)
    requires t.w >= 0 && t.h >= 0
    requires 0.0 <= t.anchorY.GetOr(DefaultAnchor) <= 1.0
    ensures Hits(t, t.x as real, t.y as real)
  {
    var anchor := t.anchorY.GetOr(DefaultAnchor);
    var b := HitBox(t);
    MulFractionBounds(anchor, t.h as real);
    assert b.top == t.y as real - t.h as real * anchor <= t.y as real;
    assert t.y as real <= b.top + t.h as real == b.bottom;
    assert b.left <= t.x as real <= b.right;
  }

  /** `hitTest`: the last record in the list (the one drawn on top) whose box
      contains the point, or none when no box does. */
  method HitTest(records: seq<TreeRecord>, x: real, y: real) returns (r: Option<TreeRecord>)
    ensures r.None? <==> forall i :: 0 <= i < |records| ==> !Hits(records[i], x, y)
    ensures r.Some? ==> exists i ::
      && 0 <= i < |records| && records[i] == r.value && Hits(records[i], x, y)
      && forall j :: i < j < |records| ==> !Hits(records[j], x, y)
  {
    var i := |records|;
    while i > 0
      invariant 0 <= i <= |records|
      invariant forall j :: i <= j < |records| ==> !Hits(records[j], x, y)
    {
      i := i - 1;
      if Hits(records[i], x, y) {
        return Some(records[i]);
      }
    }
    return None;
  }
}

=== FILE: records.dfy ===
/** The records the placement passes work on: the achievement as fetched, and
    the placed record (`TreeRecord` plus the `anchorY` the passes attach). */
module Records {
  import opened Common
  import opened Sequences

  datatype AchievementType = Tree | Pine | Cloud | Flag | Flower | Sky

  datatype Achievement = Achievement(
    id: int,
    title: string,
    year: int,
    description: Option<string>,
    completed: bool,
    progress: int,
    createdAt: string,
    updatedAt: string,
    completedAt: Option<string>,
    kind: Option<AchievementType>)

  /** A placed element: `x`/`y` is its foot, `w`/`h` its box, `anchorY` the
      fraction of `h` above the foot at which the box starts (absent on some
      passes, in which case readers default it). */
  datatype TreeRecord = TreeRecord(
    id: int,
    x: int,
    y: int,
    w: int,
    h: int,
    achievement: Achievement,
    typeKey: string,
    anchorY: Option<real>)

  predicate IsSkyAchievement(a: Achievement) {
    a.kind == Some(Sky)
  }

  /** `achievements.filter(a => a.type !== "sky")`: every achievement without
      the sky type (an absent type included), in order. */
  function GroundAchievements(all: seq<Achievement>): (g: seq<Achievement>)
    ensures forall k :: 0 <= k < |g| ==> !IsSkyAchievement(g[k])
    ensures forall a :: !IsSkyAchievement(a) ==> multiset(g)[a] == multiset(all)[a]
    ensures forall a :: IsSkyAchievement(a) ==> a !in g
    ensures Subsequence(g, all)
  {
    Filter(all, (a: Achievement) => !IsSkyAchievement(a))
  }

  /** `achievements.filter(a => a.type === "sky")` */
  function SkyAchievements(all: seq<Achievement>): (s: seq<Achievement>)
    ensures forall k :: 0 <= k < |s| ==> IsSkyAchievement(s[k])
    ensures forall a :: IsSkyAchievement(a) ==> multiset(s)[a] == multiset(all)[a]
    ensures forall a :: !IsSkyAchievement(a) ==> a !in s
    ensures Subsequence(s, all)
  {
    Filter(all, (a: Achievement) => IsSkyAchievement(a))
  }

  /** The three tree pictures cycled by index: "tree", "tree2", "tree3". */
  function TreeKey(index: nat): (k: string)
    ensures index % 3 == 0 <==> k == "tree"
    ensures index % 3 == 1 <==> k == "tree2"
    ensures index % 3 == 2 <==> k == "tree3"
  {
    if index % 3 == 0 then "tree" else if index % 3 == 1 then "tree2" else "tree3"
  }

  function AchievementOf(t: TreeRecord): Achievement { t.achievement }

  /** The achievements a list of records stands for, in list order. */
  function AchievementsOf(rs: seq<TreeRecord>): seq<Achievement> {
    Map(rs, AchievementOf)
  }

  /** Sorting records and then editing them in place without touching their
      achievements keeps every achievement, each as often as before. */
  lemma KeptAchievements(records: seq<TreeRecord>, sorted: seq<TreeRecord>, edited: seq<TreeRecord>)
    requires multiset(sorted) == multiset(records)
    requires |edited| == |sorted|
    requires forall k :: 0 <= k < |sorted| ==> edited[k].achievement == sorted[k].achievement
    ensures multiset(AchievementsOf(edited)) == multiset(AchievementsOf(records))
  {
    MapPermutation(records, sorted, AchievementOf);
    assert AchievementsOf(edited) == AchievementsOf(sorted);
  }
}

=== FILE: scene.dfy ===
/** The fixed mountain regions, their viewport scaling, point containment and
    the vertical column scans that every terrain query is built from.

    A region's outline is an SVG path string over a 1000-wide box (300 high for
    the three background ranges, 200 high for the foreground). Parsing it and
    deciding whether a pixel lies inside the filled curve is the browser's job
    (`Path2D`, `isPointInPath`); here it is the `inPath` oracle of `Env`. */
module Scene {
  import opened Common

  datatype Region = Region(d: string, isForeground: bool)

  /** The four ranges, back to front; only the last is the foreground. */
  const Mountains: seq<Region> := [
    Region("M0,220 Q150,120 300,200 T600,200 T1000,180 L1000,300 L0,300 Z", false),
    Region("M0,240 Q180,140 360,220 T720,220 T1000,200 L1000,300 L0,300 Z", false),
    Region("M0,260 Q200,160 400,240 T800,240 T1000,220 L1000,300 L0,300 Z", false),
    Region("M0,120 C200,40 400,40 600,120 C750,170 900,140 1000,120 L1000,200 L0,200 Z", true)
  ]

  const ForegroundIndex: nat := 3

  /** The `DOMMatrix([scaleX, 0, 0, scaleY, 0, offsetY])` a path is drawn with. */
  datatype Transform = Transform(scaleX: real, scaleY: real, offsetY: int)

  /** A region placed into viewport pixels: what `createScaledPath` builds. */
  datatype ScaledPath = ScaledPath(region: Region, transform: Transform)

  /** The rendering environment: the viewport (`window.innerWidth`,
      `window.innerHeight`), whether a 2D context can be created, and the
      browser's point-in-path test. */
  datatype Env = Env(width: nat, height: nat, hasContext: bool,
                     inPath: (ScaledPath, real, real) -> bool)

  /** Height of a region's own coordinate box. */
  function BoxHeight(r: Region): int {
    if r.isForeground then 200 else 300
  }

  /** Where the transform sends a y coordinate of the region's box. */
  function MapY(t: Transform, svgY: real): real {
    svgY * t.scaleY + t.offsetY as real
  }

  function MapX(t: Transform, svgX: real): real {
    svgX * t.scaleX
  }

  /** `createScaledPath`: the foreground occupies the bottom third of the
      viewport, the background ranges the bottom half, each rounded to whole
      pixels; the box's bottom edge lands exactly on the viewport's bottom and
      its right edge on the viewport's right. */
  function CreateScaledPath(r: Region, w: int, h: int): (p: ScaledPath)
    ensures p.region == r
    ensures MapX(p.transform, 1000.0) == w as real
    ensures MapY(p.transform, BoxHeight(r) as real) == h as real
    ensures var band := h - p.transform.offsetY;
            var share := if r.isForeground then 3.0 else 2.0;
            band as real - 0.5 <= h as real / share < band as real + 0.5
    ensures p.transform.scaleY * BoxHeight(r) as real == (h - p.transform.offsetY) as real
  {
    var svgHeight := if r.isForeground then Round(h as real / 3.0) else Round(h as real / 2.0);
    var boxHeight := if r.isForeground then 200.0 else 300.0;
    ScaledPath(r, Transform(w as real / 1000.0, svgHeight as real / boxHeight, h - svgHeight))
  }

  /** `MOUNTAIN_PATHS.map(p => createScaledPath(p.d, p.isForeground))` */
  function ScaleAll(w: int, h: int): (paths: seq<ScaledPath>)
    ensures |paths| == |Mountains|
    ensures forall i :: 0 <= i < |paths| ==> paths[i] == CreateScaledPath(Mountains[i], w, h)
  {
    seq(|Mountains|, i requires 0 <= i < |Mountains| => CreateScaledPath(Mountains[i], w, h))
  }

  /** The point lies in the scaled path; with no 2D context, never (fail closed). */
  predicate InPath(env: Env, p: ScaledPath, x: real, y: real) {
    env.hasContext && env.inPath(p, x, y)
  }

  /** The `for (const scaledPath of scaledPaths) if (isPointInPath(..)) return true`
      loop, from index `k` on. */
  function AnyContains(env: Env, paths: seq<ScaledPath>, x: real, y: real, k: nat): (r: bool)
    requires k <= |paths|
    decreases |paths| - k
    ensures r <==> exists i :: k <= i < |paths| && InPath(env, paths[i], x, y)
  {
    if k == |paths| then false
    else InPath(env, paths[k], x, y) || AnyContains(env, paths, x, y, k + 1)
  }

  /** Scanning down a column from row `y`: the first row below `h` that is
      inside, or `h` when there is none. */
  function ScanDown(inside: int -> bool, y: int, h: int): (r: int)
    requires y <= h
    decreases h - y
    ensures y <= r <= h
    ensures r < h ==> inside(r)
    ensures forall y' :: y <= y' < r ==> !inside(y')
  {
    if y == h then h
    else if inside(y) then y
    else ScanDown(inside, y + 1, h)
  }

  /** Scanning up a column from row `y`: the first row at or above it (but
      not above 0) that is inside, or -1 when there is none. */
  function ScanUp(inside: int -> bool, y: int): (r: int)
    requires y >= -1
    decreases y + 1
    ensures -1 <= r <= y
    ensures r >= 0 ==> inside(r)
    ensures forall y' :: r < y' <= y && y' >= 0 ==> !inside(y')
  {
    if y < 0 then -1
    else if inside(y) then y
    else ScanUp(inside, y - 1)
  }
}

=== FILE: sequences.dfy ===
/** The array operations the placement passes lean on: `Array.prototype.sort`
    with an integer key comparator and `Array.prototype.filter`. */
module Sequences {

  ghost predicate SortedBy<T>(s: seq<T>, key: T -> int) {
    forall i, j :: 0 <= i < j < |s| ==> key(s[i]) <= key(s[j])
  }

  /** `r` keeps some of the elements of `s`, in the order they have in `s`. */
  ghost predicate Subsequence<T>(r: seq<T>, s: seq<T>)
    decreases |s|
  {
    if r == [] then true
    else if s == [] then false
    else (r[0] == s[0] && Subsequence(r[1..], s[1..])) || Subsequence(r, s[1..])
  }

  /** Places `x` after every element of the sorted `s` whose key does not
      exceed its own, as a stable sort does with a later element. */
  function Insert<T>(x: T, s: seq<T>, key: T -> int): (r: seq<T>)
    requires SortedBy(s, key)
    ensures SortedBy(r, key)
    ensures multiset(r) == multiset(s) + multiset{x}
    ensures |r| == |s| + 1
    ensures forall k :: 0 <= k < |r| ==> r[k] == x || r[k] in s
  {
    if s == [] then [x]
    else if key(x) < key(s[0]) then
      InsertFront(x, s, key);
      [x] + s
    else
      var tail := Insert(x, s[1..], key);
      InsertBehind(x, s, tail, key);
      [s[0]] + tail
  }

  /** Putting `x` in front of a sorted `s` whose first key exceeds `x`'s keeps it sorted. */
  lemma InsertFront<T>(x: T, s: seq<T>, key: T -> int)
    requires SortedBy(s, key) && s != [] && key(x) < key(s[0])
    ensures SortedBy([x] + s, key)
  {
    var r := [x] + s;
    forall i, j | 0 <= i < j < |r|
      ensures key(r[i]) <= key(r[j])
    {
      if i == 0 {
        assert r[j] == s[j - 1];
      } else {
        assert r[i] == s[i - 1] && r[j] == s[j - 1];
      }
    }
  }

  /** Keeping the head of `s` in front of `x` inserted into the rest. */
  lemma InsertBehind<T>(x: T, s: seq<T>, tail: seq<T>, key: T -> int)
    requires SortedBy(s, key) && s != [] && key(s[0]) <= key(x)
    requires SortedBy(tail, key)
    requires multiset(tail) == multiset(s[1..]) + multiset{x}
    requires forall k :: 0 <= k < |tail| ==> tail[k] == x || tail[k] in s[1..]
    ensures SortedBy([s[0]] + tail, key)
    ensures multiset([s[0]] + tail) == multiset(s) + multiset{x}
    ensures forall k :: 0 <= k < |tail| + 1 ==> ([s[0]] + tail)[k] == x || ([s[0]] + tail)[k] in s
  {
    assert s == [s[0]] + s[1..];
    var r := [s[0]] + tail;
    forall k | 0 <= k < |tail|
      ensures key(s[0]) <= key(tail[k])
    {
      if tail[k] != x {
        var j :| 0 <= j < |s[1..]| && s[1..][j] == tail[k];
        assert s[j + 1] == tail[k];
      }
    }
    forall i, j | 0 <= i < j < |r|
      ensures key(r[i]) <= key(r[j])
    {
      assert r[j] == tail[j - 1];
      if i > 0 {
        assert r[i] == tail[i - 1];
      }
    }
  }

  /** `[...s].sort((a, b) => key(a) - key(b))`: a permutation of `s` in
      ascending key order. */
  function SortBy<T>(s: seq<T>, key: T -> int): (r: seq<T>)
    ensures SortedBy(r, key)
    ensures multiset(r) == multiset(s)
    ensures |r| == |s|
  {
    if s == [] then []
    else
      var init := s[..|s| - 1];
      assert s == init + [s[|s| - 1]];
      Insert(s[|s| - 1], SortBy(init, key), key)
  }

  /** The elements of `s` whose key is `k`, in their order in `s`. */
  function WithKey<T>(s: seq<T>, key: T -> int, k: int): (r: seq<T>)
    ensures |r| <= |s|
    ensures forall t :: t in r ==> t in s && key(t) == k
  {
    if s == [] then []
    else (if key(s[0]) == k then [s[0]] else []) + WithKey(s[1..], key, k)
  }

  lemma {:induction false} WithKeyAppend<T>(a: seq<T>, x: T, key: T -> int, k: int)
    ensures WithKey(a + [x], key, k) == WithKey(a, key, k) + (if key(x) == k then [x] else [])
    decreases |a|
  {
    if a == [] {
      assert WithKey([x], key, k) == (if key(x) == k then [x] else []) + WithKey([], key, k);
    } else {
      assert (a + [x])[1..] == a[1..] + [x];
      WithKeyAppend(a[1..], x, key, k);
    }
  }

  lemma WithKeyCons<T>(x: T, s: seq<T>, key: T -> int, k: int)
    ensures WithKey([x] + s, key, k) == (if key(x) == k then [x] else []) + WithKey(s, key, k)
  {
    assert ([x] + s)[1..] == s;
  }

  /** A sorted list whose first key exceeds `k` has nothing of key `k`. */
  lemma KeysAbove<T>(s: seq<T>, key: T -> int, k: int)
    requires SortedBy(s, key) && s != [] && key(s[0]) > k
    ensures WithKey(s, key, k) == []
  {
  }

  lemma SortedTail<T>(s: seq<T>, key: T -> int)
    requires SortedBy(s, key) && s != []
    ensures SortedBy(s[1..], key)
  {
    forall i, j | 0 <= i < j < |s[1..]|
      ensures key(s[1..][i]) <= key(s[1..][j])
    {
      assert s[1..][i] == s[i + 1] && s[1..][j] == s[j + 1];
    }
  }

  /** `Insert` puts `x` behind every element of equal key. */
  lemma {:induction false} InsertWithKey<T>(x: T, s: seq<T>, key: T -> int, k: int)
    requires SortedBy(s, key)
    ensures WithKey(Insert(x, s, key), key, k) == WithKey(s, key, k) + (if key(x) == k then [x] else [])
    decreases |s|
  {
    var mark := if key(x) == k then [x] else [];
    if s == [] {
      assert Insert(x, s, key) == [x] + s;
      WithKeyCons(x, s, key, k);
    } else if key(x) < key(s[0]) {
      assert Insert(x, s, key) == [x] + s;
      WithKeyCons(x, s, key, k);
      if key(x) == k {
        KeysAbove(s, key, k);
      }
    } else {
      var tail := Insert(x, s[1..], key);
      assert Insert(x, s, key) == [s[0]] + tail;
      SortedTail(s, key);
      InsertWithKey(x, s[1..], key, k);
      KeepHeadWithKey(s, tail, key, k, mark);
    }
  }

  /** Keeping the head of `s` in front of a list that has, for key `k`, the
      rest of `s` followed by `mark`. */
  lemma KeepHeadWithKey<T>(s: seq<T>, tail: seq<T>, key: T -> int, k: int, mark: seq<T>)
    requires s != []
    requires WithKey(tail, key, k) == WithKey(s[1..], key, k) + mark
    ensures WithKey([s[0]] + tail, key, k) == WithKey(s, key, k) + mark
  {
    var head := if key(s[0]) == k then [s[0]] else [];
    WithKeyCons(s[0], tail, key, k);
    assert WithKey(s, key, k) == head + WithKey(s[1..], key, k);
    assert head + (WithKey(s[1..], key, k) + mark) == (head + WithKey(s[1..], key, k)) + mark;
  }

  /** The sort is stable: for every key, the elements carrying it come out in
      the order they went in, as `Array.prototype.sort` guarantees. */
  lemma {:induction false} SortByStable<T>(s: seq<T>, key: T -> int, k: int)
    ensures WithKey(SortBy(s, key), key, k) == WithKey(s, key, k)
    decreases |s|
  {
    if s != [] {
      var init := s[..|s| - 1];
      var last := s[|s| - 1];
      assert s == init + [last];
      SortByStable(init, key, k);
      InsertWithKey(last, SortBy(init, key), key, k);
      WithKeyAppend(init, last, key, k);
    }
  }

  /** `s.filter(p)`: exactly the elements of `s` that satisfy `p`, each as
      often as it occurs in `s`, in their original order. */
  function Filter<T(!new)>(s: seq<T>, p: T -> bool): (r: seq<T>)
    ensures forall k :: 0 <= k < |r| ==> p(r[k])
    ensures forall t :: p(t) ==> multiset(r)[t] == multiset(s)[t]
    ensures forall t :: !p(t) ==> multiset(r)[t] == 0
    ensures Subsequence(r, s)
    ensures |r| <= |s|
  {
    if s == [] then []
    else
      assert s == [s[0]] + s[1..];
      var rest := Filter(s[1..], p);
      if p(s[0]) then
        assert ([s[0]] + rest)[1..] == rest;
        [s[0]] + rest
      else rest
  }

  /** `s.map(f)` */
  function Map<T, U>(s: seq<T>, f: T -> U): (r: seq<U>)
    ensures |r| == |s|
    ensures forall k :: 0 <= k < |s| ==> r[k] == f(s[k])
  {
    seq(|s|, i requires 0 <= i < |s| => f(s[i]))
  }

  /** Mapping distributes over concatenation. */
  lemma MapConcat<T, U>(p: seq<T>, q: seq<T>, f: T -> U)
    ensures Map(p + q, f) == Map(p, f) + Map(q, f)
  {
  }

  /** Mapping two rearrangements of one another gives two rearrangements of
      one another: a sort changes the order of what it carries, not what. */
  lemma {:induction false} MapPermutation<T, U>(a: seq<T>, b: seq<T>, f: T -> U)
    requires multiset(a) == multiset(b)
    ensures multiset(Map(a, f)) == multiset(Map(b, f))
    decreases |a|
  {
    if |a| == 0 {
      assert |b| == |multiset(b)| == 0;
    } else {
      var x := a[0];
      assert x in multiset(b);
      var j :| 0 <= j < |b| && b[j] == x;
      var rest := b[..j] + b[j + 1..];
      assert b == b[..j] + [x] + b[j + 1..];
      assert a == [x] + a[1..];
      var before, after := multiset(a[1..]), multiset(rest);
      calc {
        before + multiset{x};
        multiset(a);
        multiset(b);
        multiset(b[..j] + [x] + b[j + 1..]);
        multiset(b[..j]) + multiset{x} + multiset(b[j + 1..]);
        after + multiset{x};
      }
      assert before == after by {
        forall e
          ensures before[e] == after[e]
        {
          assert (before + multiset{x})[e] == (after + multiset{x})[e];
        }
      }
      MapPermutation(a[1..], rest, f);
      MapConcat(b[..j], [x], f);
      MapConcat(b[..j] + [x], b[j + 1..], f);
      MapConcat(b[..j], b[j + 1..], f);
      MapConcat([x], a[1..], f);
    }
  }
}

=== FILE: sky_placement.dfy ===
/** The sky canvas (`SkyElements.tsx`): each sky achievement becomes a star,
    spread across the band of padding 50, placed at a random height between
    row 60 and the sky band of its column, spaced, clamped, and kept only where
    the sky check accepts its final position. */
module SkyPlacement {
  import opened Common
  import opened Sequences
  import opened Scene
  import opened Records
  import opened Passes
  import Bounds

  /** `max(SKY_MIN_Y, SKY_TOP_PADDING)`: the highest row a sky element may use. */
  const MinY: int := Max(Bounds.SkyMinY, Bounds.SkyTopPadding)

  /** The star's anchor when the star picture declares none. */
  const DefaultStarAnchor: real := 0.98

  /** The height drawn for a sky element whose column's sky band ends at
      `maxY`: `round(max(minY, min(maxY, minY + p * max(1, maxY - minY))))`.
      Never above row 60, never below the band when the band reaches row 60,
      and exactly row 60 when it does not. */
  function SkyHeight(maxY: int, p: Unit): (y: int)
    ensures y >= MinY
    ensures maxY >= MinY ==> y <= maxY
    ensures maxY < MinY ==> y == MinY
  {
    var spread := MaxR(1.0, (maxY - MinY) as real);
    MulUnitBounds(p, spread);
    var v := MinR(maxY as real, MinY as real + p * spread);
    var clamped := MaxR(MinY as real, v);
    RoundWithin(clamped, MinY, Max(MinY, maxY));
    Round(clamped)
  }

  /** The record built for the `index`-th sky achievement: its height is
      drawn against the sky band at the jittered `x`. */
  function MakeRecord(env: Env, a: Achievement, index: nat, count: nat,
                      minX: int, maxX: int, prng: (int, int) -> Unit): (t: TreeRecord)
    requires minX <= maxX && index < count
    ensures t.id == a.id && t.achievement == a
    ensures var baseX := EvenSpreadX(minX, maxX, index, count);
            baseX - 30 <= t.x <= baseX + 30
    ensures var maxY := Bounds.GetSkyMaxY(env, t.x as real, Bounds.SkyMargin);
            MinY <= t.y && (maxY >= MinY ==> t.y <= maxY)
    ensures t.w == 40 && t.h == 30 && t.typeKey == "cloud" && t.anchorY == None
  {
    var baseX := EvenSpreadX(minX, maxX, index, count);
    var x := baseX + CentredJitter(prng(a.id, 1), 60);
    var maxY := Bounds.GetSkyMaxY(env, x as real, Bounds.SkyMargin);
    TreeRecord(a.id, x, SkyHeight(maxY, prng(a.id, 2)), 40, 30, a, "cloud", None)
  }

  function InitialRecords(env: Env, sky: seq<Achievement>, b: Bounds.XBounds, prng: (int, int) -> Unit)
    : (rs: seq<TreeRecord>)
    requires b.minX <= b.maxX
    ensures |rs| == |sky|
    ensures AchievementsOf(rs) == sky
    ensures forall k :: 0 <= k < |rs| ==> rs[k].achievement == sky[k] && rs[k].id == sky[k].id
  {
    seq(|sky|, i requires 0 <= i < |sky| => MakeRecord(env, sky[i], i, |sky|, b.minX, b.maxX, prng))
  }

  /** The final position of a record passes the sky check of `bounds.ts`. */
  predicate Valid(env: Env, t: TreeRecord) {
    Bounds.CanPlaceInSky(env, t.x as real, t.y as real, Bounds.SkyMargin)
  }

  /** `skyRecords.filter(r => canPlaceInSky(r.x, r.y, SKY_MARGIN))`: exactly the
      records whose final spot is sky inside the band, in order. */
  function ValidSkyRecords(env: Env, rs: seq<TreeRecord>): (v: seq<TreeRecord>)
    ensures forall k :: 0 <= k < |v| ==> Valid(env, v[k])
    ensures forall t :: Valid(env, t) ==> multiset(v)[t] == multiset(rs)[t]
    ensures forall t :: !Valid(env, t) ==> t !in v
    ensures Subsequence(v, rs)
  {
    Filter(rs, (t: TreeRecord) => Valid(env, t))
  }

  /** What the star loop makes of a kept record: the same spot, drawn as a
      6 by 6 star anchored at `anchor`. */
  function Star(t: TreeRecord, anchor: real): (s: TreeRecord)
    ensures s.id == t.id && s.achievement == t.achievement
    ensures s.x == t.x && s.y == t.y
    ensures s.typeKey == "star" && s.w == 6 && s.h == 6 && s.anchorY == Some(anchor)
  {
    t.(typeKey := "star", w := 6, h := 6, anchorY := Some(anchor))
  }

  /** The star loop over the sorted list (`starEntry?.anchorY ?? 0.98`). */
  function StarPass(rs: seq<TreeRecord>, starAnchor: Option<real>): (r: seq<TreeRecord>)
    ensures |r| == |rs|
    ensures forall k :: 0 <= k < |rs| ==> r[k] == Star(rs[k], starAnchor.GetOr(DefaultStarAnchor))
  {
    seq(|rs|, i requires 0 <= i < |rs| => Star(rs[i], starAnchor.GetOr(DefaultStarAnchor)))
  }

  /** A record is kept exactly when it is arranged and passes the check. */
  lemma ValidSkyRecordsMembers(env: Env, rs: seq<TreeRecord>)
    ensures forall t :: t in ValidSkyRecords(env, rs) <==> t in rs && Valid(env, t)
  {
    var v := ValidSkyRecords(env, rs);
    forall t
      ensures t in v <==> t in rs && Valid(env, t)
    {
      assert t in v <==> t in multiset(v);
      assert t in rs <==> t in multiset(rs);
    }
  }

  /** The stars are exactly the kept records, redrawn. */
  lemma StarPassMembers(rs: seq<TreeRecord>, starAnchor: Option<real>)
    ensures forall t :: t in StarPass(rs, starAnchor) ==>
      exists r :: r in rs && t == Star(r, starAnchor.GetOr(DefaultStarAnchor))
    ensures forall r :: r in rs ==> Star(r, starAnchor.GetOr(DefaultStarAnchor)) in StarPass(rs, starAnchor)
  {
    var stars := StarPass(rs, starAnchor);
    forall t | t in stars
      ensures exists r :: r in rs && t == Star(r, starAnchor.GetOr(DefaultStarAnchor))
    {
      var k :| 0 <= k < |stars| && stars[k] == t;
      assert rs[k] in rs;
    }
    forall r | r in rs
      ensures Star(r, starAnchor.GetOr(DefaultStarAnchor)) in stars
    {
      var k :| 0 <= k < |rs| && rs[k] == r;
      assert stars[k] == Star(r, starAnchor.GetOr(DefaultStarAnchor));
    }
  }

  /** Turning a kept record into a star keeps its spot, so it stays valid,
      and a valid spot is never above row 60. */
  lemma StarKeepsValid(env: Env, r: TreeRecord, anchor: real)
    requires Valid(env, r)
    ensures Valid(env, Star(r, anchor)) && MinY <= r.y
  {
  }

  /** Redrawing two rearrangements of the same records as stars gives two
      rearrangements of the same stars. */
  lemma StarPassPermutation(a: seq<TreeRecord>, b: seq<TreeRecord>, starAnchor: Option<real>)
    requires multiset(a) == multiset(b)
    ensures multiset(StarPass(a, starAnchor)) == multiset(StarPass(b, starAnchor))
  {
    var star := (t: TreeRecord) => Star(t, starAnchor.GetOr(DefaultStarAnchor));
    MapPermutation(a, b, star);
    assert StarPass(a, starAnchor) == Map(a, star);
    assert StarPass(b, starAnchor) == Map(b, star);
  }

  function ByX(t: TreeRecord): int { t.x }
  function ByY(t: TreeRecord): int { t.y }

  /** The star loop keeps every spot, so a list sorted by height stays sorted. */
  lemma StarPassKeepsOrder(rs: seq<TreeRecord>, starAnchor: Option<real>)
    requires SortedBy(rs, ByY)
    ensures SortedBy(StarPass(rs, starAnchor), ByY)
  {
    var stars := StarPass(rs, starAnchor);
    forall i, j | 0 <= i < j < |stars|
      ensures ByY(stars[i]) <= ByY(stars[j])
    {
      assert ByY(stars[i]) == ByY(rs[i]) && ByY(stars[j]) == ByY(rs[j]);
    }
  }

  /** The records before the sky check: the initial records sorted by `x`,
      spaced by 24 and clamped into the band. */
  function ArrangedRecords(env: Env, sky: seq<Achievement>, b: Bounds.XBounds, prng: (int, int) -> Unit)
    : seq<TreeRecord>
    requires b.minX <= b.maxX
  {
    var sorted := SortBy(InitialRecords(env, sky, b, prng), ByX);
    ClampAll(SpaceFrom(sorted, 1, Bounds.MinSkySpacing), b.minX, b.maxX)
  }

  /** Sorting by `x`, spacing by 24 and clamping into the band. */
  method Arrange(env: Env, sky: seq<Achievement>, b: Bounds.XBounds, prng: (int, int) -> Unit)
    returns (arranged: seq<TreeRecord>)
    requires b.minX <= b.maxX
    ensures arranged == ArrangedRecords(env, sky, b, prng)
    ensures |arranged| == |sky|
    ensures forall t :: t in arranged ==> b.minX <= t.x <= b.maxX && t.achievement in sky
    ensures multiset(AchievementsOf(arranged)) == multiset(sky)
  {
    var records := InitialRecords(env, sky, b, prng);
    var sorted := SortBy(records, ByX);
    var spaced := SpacingPass(sorted, Bounds.MinSkySpacing);
    arranged := ClampPass(spaced, b.minX, b.maxX);
    assert forall k :: 0 <= k < |arranged| ==> arranged[k].achievement == sorted[k].achievement;
    ArrangedInBand(sky, records, sorted, arranged, b);
    KeptAchievements(records, sorted, arranged);
  }

  /** Records clamped into the band after a reordering of the initial ones
      lie in the band and each carries one of the sky achievements. */
  lemma ArrangedInBand(sky: seq<Achievement>, records: seq<TreeRecord>, sorted: seq<TreeRecord>,
                       arranged: seq<TreeRecord>, b: Bounds.XBounds)
    requires forall k :: 0 <= k < |records| ==> records[k].achievement in sky
    requires multiset(sorted) == multiset(records)
    requires |arranged| == |sorted|
    requires forall k :: 0 <= k < |arranged| ==>
      arranged[k].achievement == sorted[k].achievement && b.minX <= arranged[k].x <= b.maxX
    ensures forall t :: t in arranged ==> b.minX <= t.x <= b.maxX && t.achievement in sky
  {
    forall t | t in arranged
      ensures b.minX <= t.x <= b.maxX && t.achievement in sky
    {
      var k :| 0 <= k < |arranged| && arranged[k] == t;
      assert sorted[k] in multiset(records);
    }
  }

  /** The whole `compute` pass: the arranged records, and the stars that are
      drawn and hit-tested. A star is drawn for an arranged record exactly
      when the record passes the sky check, and the stars run top to bottom. */
  method Compute(env: Env, achievements: seq<Achievement>, prng: (int, int) -> Unit,
                 starAnchor: Option<real>)
    returns (arranged: seq<TreeRecord>, drawn: seq<TreeRecord>)
    ensures |arranged| == |SkyAchievements(achievements)|
    ensures multiset(AchievementsOf(arranged)) == multiset(SkyAchievements(achievements))
    ensures var b := Bounds.GetSkyXBounds(env.width, Bounds.SkyPadding);
      forall t :: t in arranged ==> b.minX <= t.x <= b.maxX && t.achievement in SkyAchievements(achievements)
    ensures forall t :: t in drawn ==>
      exists r :: r in arranged && Valid(env, r) && t == Star(r, starAnchor.GetOr(DefaultStarAnchor))
    ensures forall r :: r in arranged && Valid(env, r) ==>
      Star(r, starAnchor.GetOr(DefaultStarAnchor)) in drawn
    ensures forall t :: t in drawn ==> Valid(env, t) && MinY <= t.y
    ensures SortedBy(drawn, ByY)
    ensures multiset(drawn) == multiset(StarPass(ValidSkyRecords(env, arranged), starAnchor))
    ensures |drawn| == |ValidSkyRecords(env, arranged)|
    ensures arranged == ArrangedRecords(env, SkyAchievements(achievements),
                                        Bounds.GetSkyXBounds(env.width, Bounds.SkyPadding), prng)
    ensures drawn == StarPass(SortBy(ValidSkyRecords(env, arranged), ByY), starAnchor)
  {
    var b := Bounds.GetSkyXBounds(env.width, Bounds.SkyPadding);
    var sky := SkyAchievements(achievements);
    arranged := Arrange(env, sky, b, prng);
    var valid := ValidSkyRecords(env, arranged);
    var sorted := SortBy(valid, ByY);
    var anchor := starAnchor.GetOr(DefaultStarAnchor);
    drawn := StarPass(sorted, starAnchor);

    ValidSkyRecordsMembers(env, arranged);
    assert forall r :: r in sorted <==> r in valid by {
      forall r ensures r in sorted <==> r in valid {
        assert r in sorted <==> r in multiset(sorted);
        assert r in valid <==> r in multiset(valid);
      }
    }
    StarPassMembers(sorted, starAnchor);
    forall t | t in drawn
      ensures Valid(env, t) && MinY <= t.y
    {
      var r :| r in sorted && t == Star(r, anchor);
      StarKeepsValid(env, r, anchor);
    }
    StarPassKeepsOrder(sorted, starAnchor);
    StarPassPermutation(sorted, valid, starAnchor);
  }
}

=== FILE: terrain_engine.dfy ===
/** The position engine (`src/core/terrain/TerrainEngine.ts`): random sky and
    ground spots, each kept a minimum distance from the spots already handed
    out on the same layer, with up to 200 tries before a fixed fallback.

    The module-level `usedSky` / `usedGround` arrays are the `EngineState`
    threaded through the calls; `Math.random()` is the stream `rand`, read
    from position `cursor` on, one draw per use. */
module TerrainEngine {
  import opened Common
  import opened Scene
  import Bounds

  const MaxTries: nat := 200

  datatype EngineState = EngineState(usedSky: seq<Pt>, usedGround: seq<Pt>)

  datatype TerrainSlot = SkySlot | GroundSlot

  function Sq(d: real): real { d * d }

  /** `Math.hypot(p.x - x, p.y - y) < minDist`, compared squared: a distance
      is never negative, so it is below `minDist` exactly when `minDist` is
      positive and its square is below `minDist` squared. */
  predicate Near(p: Pt, x: real, y: real, minDist: real) {
    minDist > 0.0 && Sq(p.x - x) + Sq(p.y - y) < minDist * minDist
  }

  /** `isTooClose`: `list.some(p => hypot(..) < minDist)`. */
  function TooClose(x: real, y: real, list: seq<Pt>, minDist: real): (r: bool)
    ensures r <==> exists i :: 0 <= i < |list| && Near(list[i], x, y, minDist)
  {
    if |list| == 0 then false
    else Near(list[0], x, y, minDist) || TooClose(x, y, list[1..], minDist)
  }

  /** No two spots of the list are closer than `minDist`. */
  ghost predicate WellSpaced(list: seq<Pt>, minDist: real) {
    forall i, j :: 0 <= i < j < |list| ==> !Near(list[i], list[j].x, list[j].y, minDist)
  }

  /** Appending a spot that is not too close to any listed one keeps the list
      well spaced. */
  lemma {:induction false} AppendKeepsSpaced(list: seq<Pt>, p: Pt, minDist: real)
    requires WellSpaced(list, minDist)
    requires !TooClose(p.x, p.y, list, minDist)
    ensures WellSpaced(list + [p], minDist)
  {
    var l := list + [p];
    forall i, j | 0 <= i < j < |l|
      ensures !Near(l[i], l[j].x, l[j].y, minDist)
    {
      if j == |list| {
        assert l[i] == list[i] && l[j] == p;
      } else {
        assert l[i] == list[i] && l[j] == list[j];
      }
    }
  }

  /** The tries loop shared by both engines: the first try in `[0, 200)` whose
      candidate is accepted, or none when all 200 are refused. */
  method FirstAccepted(candidate: nat -> Pt, accept: Pt -> bool) returns (k: Option<nat>)
    ensures k.Some? ==> k.value < MaxTries && accept(candidate(k.value))
    ensures k.Some? ==> forall j :: 0 <= j < k.value ==> !accept(candidate(j))
    ensures k.None? <==> forall j :: 0 <= j < MaxTries ==> !accept(candidate(j))
  {
    var tries := 0;
    while tries < MaxTries
      invariant 0 <= tries <= MaxTries
      invariant forall j :: 0 <= j < tries ==> !accept(candidate(j))
    {
      if accept(candidate(tries)) {
        return Some(tries);
      }
      tries := tries + 1;
    }
    return None;
  }

  /** `Math.random() * (hi - lo) + lo` for one draw `r`: inside `[lo, hi]`
      whenever the range is not empty. */
  function Spread(r: Unit, lo: int, hi: int): (v: real)
    ensures lo <= hi ==> lo as real <= v <= hi as real
    ensures lo < hi ==> v < hi as real
  {
    assert lo <= hi ==> 0.0 <= r * (hi - lo) as real <= (hi - lo) as real by {
      if lo <= hi { MulUnitBounds(r, (hi - lo) as real); }
    }
    r * (hi - lo) as real + lo as real
  }

  // ---------------------------------------------------------------------
  // Sky engine

  /** The spot drawn on a sky try reading the stream at `c` and `c + 1`:
      anywhere across the band of padding 50, and between row 8 and the sky
      band of that column. */
  function SkyCandidate(env: Env, rand: nat -> Unit, c: nat): (p: Pt)
    ensures var b := Bounds.GetSkyXBounds(env.width, Bounds.SkyPadding);
            b.minX as real <= p.x <= b.maxX as real
    ensures var maxY := Bounds.GetSkyMaxY(env, p.x, Bounds.SkyMargin);
            maxY >= Bounds.SkyMinY ==> Bounds.SkyMinY as real <= p.y <= maxY as real
  {
    var b := Bounds.GetSkyXBounds(env.width, Bounds.SkyPadding);
    var x := Spread(rand(c), b.minX, b.maxX);
    var yb := Bounds.GetSkyYBounds(env, x, Bounds.SkyMargin, Bounds.SkyMinY);
    Pt(x, Spread(rand(c + 1), yb.minY, yb.maxY))
  }

  /** The spot of sky try `k` of a call that starts reading the stream at `cursor`. */
  function SkyTry(env: Env, rand: nat -> Unit, cursor: nat, k: nat): Pt {
    SkyCandidate(env, rand, cursor + 2 * k)
  }

  /** A sky spot is accepted when the sky check allows it and no used sky
      spot lies within 24 pixels. */
  predicate AcceptSky(env: Env, used: seq<Pt>, p: Pt) {
    Bounds.CanPlaceInSky(env, p.x, p.y, Bounds.SkyMargin) &&
    !TooClose(p.x, p.y, used, Bounds.MinSkySpacing as real)
  }

  /** `(minX + 50, 80)` */
  function SkyFallback(env: Env): Pt {
    Pt((Bounds.GetSkyXBounds(env.width, Bounds.SkyPadding).minX + 50) as real, 80.0)
  }

  /** `generateSkyPosition`. On success the spot is the first accepted try's,
      it is recorded as used, and the used sky spots stay well spaced; after
      200 refused tries the fallback is returned and nothing is recorded. */
  method GenerateSkyPosition(env: Env, st: EngineState, rand: nat -> Unit, cursor: nat)
    returns (pos: Pt, next: EngineState, cursorOut: nat)
    ensures next.usedGround == st.usedGround
    ensures next.usedSky == st.usedSky || next.usedSky == st.usedSky + [pos]
    ensures next.usedSky == st.usedSky + [pos] ==>
      && AcceptSky(env, st.usedSky, pos)
      && exists k :: 0 <= k < MaxTries && pos == SkyTry(env, rand, cursor, k) &&
           cursorOut == cursor + 2 * (k + 1) &&
           forall j :: 0 <= j < k ==> !AcceptSky(env, st.usedSky, SkyTry(env, rand, cursor, j))
    ensures next == st <==>
      forall j :: 0 <= j < MaxTries ==> !AcceptSky(env, st.usedSky, SkyTry(env, rand, cursor, j))
    ensures next == st ==> pos == SkyFallback(env) && cursorOut == cursor + 2 * MaxTries
    ensures WellSpaced(st.usedSky, Bounds.MinSkySpacing as real) ==>
      WellSpaced(next.usedSky, Bounds.MinSkySpacing as real)
  {
    var candidate := (t: nat) => SkyTry(env, rand, cursor, t);
    var accept := (p: Pt) => AcceptSky(env, st.usedSky, p);
    var k := FirstAccepted(candidate, accept);
    if k.Some? {
      pos := candidate(k.value);
      next := st.(usedSky := st.usedSky + [pos]);
      cursorOut := cursor + 2 * (k.value + 1);
      assert |next.usedSky| != |st.usedSky|;
      forall j | 0 <= j < k.value
        ensures !AcceptSky(env, st.usedSky, SkyTry(env, rand, cursor, j))
      {
        assert !accept(candidate(j));
      }
      if WellSpaced(st.usedSky, Bounds.MinSkySpacing as real) {
        AppendKeepsSpaced(st.usedSky, pos, Bounds.MinSkySpacing as real);
      }
    } else {
      pos := SkyFallback(env);
      next := st;
      cursorOut := cursor + 2 * MaxTries;
      forall j | 0 <= j < MaxTries
        ensures !AcceptSky(env, st.usedSky, SkyTry(env, rand, cursor, j))
      {
        assert !accept(candidate(j));
      }
    }
  }

  // ---------------------------------------------------------------------
  // Ground engine

  /** The spot drawn on a ground try reading the stream at `c`: anywhere
      between 20 pixels from either edge (for a viewport at least 40 wide),
      4 pixels above the lowest ground row of that column, or 54 above the
      viewport's bottom where the column has no ground. */
  function GroundCandidate(env: Env, rand: nat -> Unit, c: nat): (p: Pt)
    ensures env.width >= 2 * Bounds.GroundPadding ==>
      Bounds.GroundPadding as real <= p.x <= (env.width - Bounds.GroundPadding) as real
    ensures env.width > 2 * Bounds.GroundPadding ==> p.x < (env.width - Bounds.GroundPadding) as real
    ensures p.y == (Bounds.GetBottomPx(env, p.x) - 4) as real
    ensures var h := env.height as int; var foot := Bounds.GetBottomPx(env, p.x);
      || (0 <= foot < h && Bounds.GroundRow(env, p.x, foot) &&
          forall y :: foot < y < h ==> !Bounds.GroundRow(env, p.x, y))
      || (foot == h - 50 && forall y :: 0 <= y < h ==> !Bounds.GroundRow(env, p.x, y))
  {
    var x := Spread(rand(c), Bounds.GroundPadding, env.width - Bounds.GroundPadding);
    Pt(x, (Bounds.GetBottomPx(env, x) - 4) as real)
  }

  /** The spot of ground try `k` of a call that starts reading the stream at `cursor`. */
  function GroundTry(env: Env, rand: nat -> Unit, cursor: nat, k: nat): Pt {
    GroundCandidate(env, rand, cursor + k)
  }

  /** A ground spot is accepted when no used ground spot lies within 20 pixels. */
  predicate AcceptGround(used: seq<Pt>, p: Pt) {
    !TooClose(p.x, p.y, used, Bounds.TreeMinSpacing as real)
  }

  /** `(innerWidth / 2, innerHeight - 60)` */
  function GroundFallback(env: Env): Pt {
    Pt(env.width as real / 2.0, (env.height - 60) as real)
  }

  /** `generateGroundPosition`: as the sky engine, one draw per try, with the
      ground acceptance rule and fallback. */
  method GenerateGroundPosition(env: Env, st: EngineState, rand: nat -> Unit, cursor: nat)
    returns (pos: Pt, next: EngineState, cursorOut: nat)
    ensures next.usedSky == st.usedSky
    ensures next.usedGround == st.usedGround || next.usedGround == st.usedGround + [pos]
    ensures next.usedGround == st.usedGround + [pos] ==>
      && AcceptGround(st.usedGround, pos)
      && exists k :: 0 <= k < MaxTries && pos == GroundTry(env, rand, cursor, k) &&
           cursorOut == cursor + k + 1 &&
           forall j :: 0 <= j < k ==> !AcceptGround(st.usedGround, GroundTry(env, rand, cursor, j))
    ensures next == st <==>
      forall j :: 0 <= j < MaxTries ==> !AcceptGround(st.usedGround, GroundTry(env, rand, cursor, j))
    ensures next == st ==> pos == GroundFallback(env) && cursorOut == cursor + MaxTries
    ensures WellSpaced(st.usedGround, Bounds.TreeMinSpacing as real) ==>
      WellSpaced(next.usedGround, Bounds.TreeMinSpacing as real)
  {
    var candidate := (t: nat) => GroundTry(env, rand, cursor, t);
    var accept := (p: Pt) => AcceptGround(st.usedGround, p);
    var k := FirstAccepted(candidate, accept);
    if k.Some? {
      pos := candidate(k.value);
      next := st.(usedGround := st.usedGround + [pos]);
      cursorOut := cursor + k.value + 1;
      assert |next.usedGround| != |st.usedGround|;
      forall j | 0 <= j < k.value
        ensures !AcceptGround(st.usedGround, GroundTry(env, rand, cursor, j))
      {
        assert !accept(candidate(j));
      }
      if WellSpaced(st.usedGround, Bounds.TreeMinSpacing as real) {
        AppendKeepsSpaced(st.usedGround, pos, Bounds.TreeMinSpacing as real);
      }
    } else {
      pos := GroundFallback(env);
      next := st;
      cursorOut := cursor + MaxTries;
      forall j | 0 <= j < MaxTries
        ensures !AcceptGround(st.usedGround, GroundTry(env, rand, cursor, j))
      {
        assert !accept(candidate(j));
      }
    }
  }

  // ---------------------------------------------------------------------
  // Public entry point

  /** The picture keys that go to the sky engine. */
  predicate IsSkyKey(typeKey: string) {
    typeKey == "cloud" || typeKey == "kite" || typeKey == "bird"
  }

  /** `generatePositionForAchievement`: clouds, kites and birds get a sky spot,
      everything else a ground spot; the other layer's used spots are untouched. */
  method GeneratePositionForAchievement(env: Env, st: EngineState, typeKey: string,
                                        rand: nat -> Unit, cursor: nat)
    returns (pos: Pt, slot: TerrainSlot, next: EngineState, cursorOut: nat)
    ensures slot == SkySlot <==> IsSkyKey(typeKey)
    ensures slot == SkySlot ==> next.usedGround == st.usedGround
    ensures slot == GroundSlot ==> next.usedSky == st.usedSky
    ensures slot == SkySlot && next != st ==> AcceptSky(env, st.usedSky, pos) && next.usedSky == st.usedSky + [pos]
    ensures slot == GroundSlot && next != st ==> AcceptGround(st.usedGround, pos) && next.usedGround == st.usedGround + [pos]
  {
    if IsSkyKey(typeKey) {
      pos, next, cursorOut := GenerateSkyPosition(env, st, rand, cursor);
      slot := SkySlot;
    } else {
      pos, next, cursorOut := GenerateGroundPosition(env, st, rand, cursor);
      slot := GroundSlot;
    }
  }
}

=== FILE: terrain_grid.dfy ===
/** The terrain grid (`src/hooks/useTerrainGrid.ts`): a `rows` by `cols` grid of
    points in viewport fractions, classified column by column into sky above
    and ground below a ground-height function, the first ground cell of each
    column marked as the contour; free-cell search and occupation; and the
    per-column ground cache built by scanning the foreground hill. */
module TerrainGrid {
  import opened Common
  import opened Scene
  import Bounds

  const DefaultCols: nat := 48
  const DefaultRows: nat := 32

  datatype PointType = SkyPoint | Ground | Contour | Obstacle | Empty

  /** A grid cell: its column and row (row 0 at the top), its position as
      fractions of the viewport, its class and whether something sits on it. */
  datatype Point = Point(xIndex: int, yIndex: int, xPercent: real, yPercent: real,
                         kind: PointType, occupied: bool)

  type Grid = seq<seq<Point>>

  datatype Layer = SkyLayer | GroundLayer

  /** The number of columns the grid code reads: the first row's length. */
  function Cols(grid: Grid): nat {
    if |grid| == 0 then 0 else |grid[0]|
  }

  /** Every row is at least as long as the first, so every column the code
      visits exists in every row. */
  ghost predicate WideRows(grid: Grid) {
    forall y :: 0 <= y < |grid| ==> |grid[y]| >= Cols(grid)
  }

  /** Every cell knows where it is. */
  ghost predicate IndexConsistent(grid: Grid) {
    forall y, x :: 0 <= y < |grid| && 0 <= x < |grid[y]| ==>
      grid[y][x].yIndex == y && grid[y][x].xIndex == x
  }

  // ---------------------------------------------------------------------
  // createGrid

  /** `i / (n - 1)`, or `0.5` for a single line: the fraction of the way
      across at which line `i` of `n` lies. */
  function Percent(i: nat, n: nat): (r: real)
    requires i < n
    ensures 0.0 <= r <= 1.0
    ensures n == 1 ==> r == 0.5
    ensures n >= 2 && i == 0 ==> r == 0.0
    ensures n >= 2 && i == n - 1 ==> r == 1.0
  {
    if n == 1 then 0.5
    else
      DivisionBounds(i as real, (n - 1) as real);
      i as real / (n - 1) as real
  }

  /** Later lines lie strictly further across. */
  lemma PercentIncreasing(i: nat, j: nat, n: nat)
    requires i < j < n
    ensures Percent(i, n) < Percent(j, n)
  {
    var d := (n - 1) as real;
    DivisionBounds((j - i) as real, d);
    DivisionBounds(i as real, d);
    DivisionBounds(j as real, d);
    assert j as real / d == i as real / d + (j - i) as real / d;
  }

  /** `createGrid`: every cell empty, unoccupied, at its own index and at the
      fractions of its column and row. */
  function CreateGrid(cols: nat, rows: nat): (g: Grid)
    ensures |g| == rows && Cols(g) == (if rows == 0 then 0 else cols)
    ensures forall y :: 0 <= y < rows ==> |g[y]| == cols
    ensures WideRows(g) && IndexConsistent(g)
    ensures forall y, x :: 0 <= y < rows && 0 <= x < cols ==>
      && g[y][x].xPercent == Percent(x, cols) && g[y][x].yPercent == Percent(y, rows)
      && g[y][x].kind == Empty && !g[y][x].occupied
  {
    seq(rows, y requires 0 <= y < rows =>
      seq(cols, x requires 0 <= x < cols =>
        Point(x, y, Percent(x, cols), Percent(y, rows), Empty, false)))
  }

  // ---------------------------------------------------------------------
  // classifyGrid

  /** Row `y` of column `x` lies at or below the ground height `g`. */
  predicate AtOrBelow(grid: Grid, x: nat, y: int, g: real) {
    0 <= y < |grid| && x < |grid[y]| && grid[y][x].yPercent >= g
  }

  /** The first row, in row order, of column `x` at or below `g`; `|grid|`
      when there is none. */
  function FirstGroundRow(grid: Grid, x: nat, g: real): (r: int)
    ensures 0 <= r <= |grid|
    ensures r < |grid| ==> AtOrBelow(grid, x, r, g)
    ensures forall y :: 0 <= y < r ==> !AtOrBelow(grid, x, y, g)
  {
    var below := y => AtOrBelow(grid, x, y, g);
    var r := ScanDown(below, 0, |grid|);
    assert r < |grid| ==> below(r);
    forall y | 0 <= y < r
      ensures !AtOrBelow(grid, x, y, g)
    {
      assert !below(y);
    }
    r
  }

  /** The class a cell of a visited column gets. */
  function ClassOf(grid: Grid, gh: real -> real, x: nat, y: nat): PointType
    requires 0 < |grid| && x < |grid[0]|
  {
    var g := gh(grid[0][x].xPercent);
    if !AtOrBelow(grid, x, y, g) then SkyPoint
    else if y == FirstGroundRow(grid, x, g) then Contour
    else Ground
  }

  /** The ground height `gh` gives column `x` (read at row 0's fraction). */
  function ColumnHeight(grid: Grid, gh: real -> real, x: nat): real
    requires 0 < |grid| && x < |grid[0]|
  {
    gh(grid[0][x].xPercent)
  }

  /** `k` is the class `classifyGrid` gives cell `(x, y)`: sky strictly above
      the column's ground height; at or below it, the contour for the first
      such cell in row order and ground for every later one. */
  ghost predicate MeansClass(grid: Grid, gh: real -> real, x: nat, y: nat, k: PointType)
    requires WideRows(grid) && y < |grid| && x < Cols(grid)
  {
    var g := ColumnHeight(grid, gh, x);
    && (k == SkyPoint <==> grid[y][x].yPercent < g)
    && (k == Contour <==>
          grid[y][x].yPercent >= g && forall y' :: 0 <= y' < y ==> grid[y'][x].yPercent < g)
    && (k == Ground <==>
          grid[y][x].yPercent >= g && exists y' :: 0 <= y' < y && grid[y'][x].yPercent >= g)
  }

  /** What the class of one cell of a visited column means. */
  lemma ClassOfMeaning(grid: Grid, gh: real -> real, x: nat, y: nat)
    requires WideRows(grid) && y < |grid| && x < Cols(grid)
    ensures MeansClass(grid, gh, x, y, ClassOf(grid, gh, x, y))
  {
    var g := ColumnHeight(grid, gh, x);
    var first := FirstGroundRow(grid, x, g);
    forall y' | 0 <= y' < |grid|
      ensures AtOrBelow(grid, x, y', g) <==> grid[y'][x].yPercent >= g
    {
    }
    if grid[y][x].yPercent >= g {
      assert first <= y;
      if first < y {
        assert grid[first][x].yPercent >= g;
      }
    }
  }

  /** One cell after classification. */
  function Classified(grid: Grid, gh: real -> real, x: nat, y: nat): Point
    requires y < |grid| && x < |grid[y]|
  {
    if x < Cols(grid) then grid[y][x].(kind := ClassOf(grid, gh, x, y)) else grid[y][x]
  }

  /** `classifyGrid`: in every column of the first row's width, each cell is
      sky strictly above the column's ground height and ground at or below it,
      except that the first ground cell in row order is the contour. Nothing
      else about any cell changes, and cells beyond that width keep their
      class. */
  function ClassifyGrid(grid: Grid, gh: real -> real): (r: Grid)
    requires WideRows(grid)
    ensures |r| == |grid| && Cols(r) == Cols(grid)
    ensures forall y :: 0 <= y < |grid| ==> |r[y]| == |grid[y]|
    ensures forall y, x :: 0 <= y < |grid| && 0 <= x < |grid[y]| ==>
      r[y][x] == grid[y][x].(kind := r[y][x].kind)
    ensures forall y, x :: 0 <= y < |grid| && Cols(grid) <= x < |grid[y]| ==> r[y][x] == grid[y][x]
    ensures forall y, x :: 0 <= y < |grid| && 0 <= x < Cols(grid) ==>
      MeansClass(grid, gh, x, y, r[y][x].kind)
  {
    var r := seq(|grid|, y requires 0 <= y < |grid| =>
      seq(|grid[y]|, x requires 0 <= x < |grid[y]| => Classified(grid, gh, x, y)));
    assert forall y, x :: 0 <= y < |grid| && 0 <= x < Cols(grid) ==>
      MeansClass(grid, gh, x, y, r[y][x].kind)
    by {
      forall y, x | 0 <= y < |grid| && 0 <= x < Cols(grid)
        ensures MeansClass(grid, gh, x, y, r[y][x].kind)
      {
        assert r[y][x] == Classified(grid, gh, x, y);
        ClassOfMeaning(grid, gh, x, y);
      }
    }
    r
  }

  /** Whatever the grid, a classified column holds at most one contour cell,
      and a column that reaches the ground height has exactly one. */
  lemma OneContourPerColumn(grid: Grid, gh: real -> real, x: nat)
    requires WideRows(grid) && x < Cols(grid)
    ensures var r := ClassifyGrid(grid, gh);
      forall y1, y2 :: 0 <= y1 < y2 < |grid| ==> !(r[y1][x].kind == Contour && r[y2][x].kind == Contour)
    ensures var r := ClassifyGrid(grid, gh);
      (exists y :: 0 <= y < |grid| && grid[y][x].yPercent >= ColumnHeight(grid, gh, x)) <==>
      (exists y :: 0 <= y < |grid| && r[y][x].kind == Contour)
  {
    var r: Grid := ClassifyGrid(grid, gh);
    var g := ColumnHeight(grid, gh, x);
    if y :| 0 <= y < |grid| && grid[y][x].yPercent >= g {
      var first := FirstGroundRow(grid, x, g);
      assert AtOrBelow(grid, x, y, g);
      assert MeansClass(grid, gh, x, first, r[first][x].kind);
    }
  }

  /** In a classified fresh grid every column reads, top to bottom: sky,
      then at most one contour cell, then ground. */
  lemma {:induction false} CreatedColumnsAreLayered(cols: nat, rows: nat, gh: real -> real,
                                                    x: nat, y1: nat, y2: nat)
    requires x < cols && y1 < y2 < rows
    ensures var r := ClassifyGrid(CreateGrid(cols, rows), gh);
      && (r[y1][x].kind != SkyPoint ==> r[y2][x].kind == Ground)
      && (r[y2][x].kind == SkyPoint ==> r[y1][x].kind == SkyPoint)
  {
    var grid: Grid := CreateGrid(cols, rows);
    PercentIncreasing(y1, y2, rows);
    assert grid[y1][x].yPercent < grid[y2][x].yPercent;
  }

  /** `useTerrainGrid`: a fresh grid classified by the ground height that
      `getGroundYPercentAt` reads from the terrain. */
  function UseTerrainGrid(env: Env, cols: nat, rows: nat): (g: Grid)
    ensures |g| == rows && WideRows(g) && IndexConsistent(g)
    ensures forall y :: 0 <= y < rows ==> |g[y]| == cols
    ensures forall y, x :: 0 <= y < rows && 0 <= x < cols ==>
      (g[y][x].kind == SkyPoint <==> Percent(y, rows) < Bounds.GetGroundYPercentAt(env, Percent(x, cols)))
  {
    var raw := CreateGrid(cols, rows);
    var gh := (xp: real) => Bounds.GetGroundYPercentAt(env, xp);
    var g := ClassifyGrid(raw, gh);
    assert IndexConsistent(g) by {
      forall y, x | 0 <= y < |g| && 0 <= x < |g[y]|
        ensures g[y][x].yIndex == y && g[y][x].xIndex == x
      {
        assert g[y][x] == raw[y][x].(kind := g[y][x].kind);
      }
    }
    assert WideRows(g) by {
      forall y | 0 <= y < |g|
        ensures |g[y]| >= Cols(g)
      {
        assert |g[y]| == |raw[y]|;
      }
    }
    assert forall y, x :: 0 <= y < rows && 0 <= x < cols ==>
      (g[y][x].kind == SkyPoint <==> Percent(y, rows) < Bounds.GetGroundYPercentAt(env, Percent(x, cols)))
    by {
      forall y, x | 0 <= y < rows && 0 <= x < cols
        ensures g[y][x].kind == SkyPoint <==> Percent(y, rows) < Bounds.GetGroundYPercentAt(env, Percent(x, cols))
      {
        assert MeansClass(raw, gh, x, y, g[y][x].kind);
        assert raw[0][x].xPercent == Percent(x, cols);
        assert ColumnHeight(raw, gh, x) == Bounds.GetGroundYPercentAt(env, Percent(x, cols));
        assert raw[y][x].yPercent == Percent(y, rows);
      }
    }
    g
  }

  // ---------------------------------------------------------------------
  // snapToGround

  /** `snapToGround`: the ground height at `xPercent`, kept inside `[0, 1]`. */
  function SnapToGround(xPercent: real, getGroundY: real -> real): (r: real)
    ensures 0.0 <= r <= 1.0
    ensures 0.0 <= getGroundY(xPercent) <= 1.0 ==> r == getGroundY(xPercent)
    ensures getGroundY(xPercent) < 0.0 ==> r == 0.0
    ensures getGroundY(xPercent) > 1.0 ==> r == 1.0
  {
    ClampR(getGroundY(xPercent), 0.0, 1.0)
  }

  // ---------------------------------------------------------------------
  // shuffle and findFreePoint

  /** `[0, 1, ..., n - 1]` */
  function Range(n: nat): (r: seq<nat>)
    ensures |r| == n && forall i :: 0 <= i < n ==> r[i] == i
  {
    seq(n, i requires 0 <= i < n => i)
  }

  /** `Math.floor(Math.random() * (i + 1))` lies in `[0, i]`. */
  lemma DrawIndex(p: Unit, i: nat)
    ensures 0 <= (p * (i + 1) as real).Floor <= i
  {
    var n := (i + 1) as real;
    var v := p * n;
    UnitScaled(p, n, v);
    FloorBelow(v, n, i);
  }

  /** A unit draw scaled by a positive `n` lies in `[0, n)`. */
  lemma UnitScaled(p: Unit, n: real, v: real)
    requires n > 0.0 && v == p * n
    ensures 0.0 <= v < n
  {
    MulUnitBounds(p, n);
  }

  /** A real in `[0, n)`, with `n == i + 1`, floors to an index in `[0, i]`. */
  lemma FloorBelow(v: real, n: real, i: nat)
    requires n == (i + 1) as real && 0.0 <= v < n
    ensures 0 <= v.Floor <= i
  {
    assert v.Floor as real <= v < v.Floor as real + 1.0;
  }

  /** `shuffle` (Fisher–Yates from the back), drawing from the stream `rand`:
      the result is a rearrangement of the input. */
  method Shuffle<T>(arr: seq<T>, rand: nat -> Unit) returns (r: seq<T>)
    ensures |r| == |arr|
    ensures multiset(r) == multiset(arr)
  {
    r := arr;
    var i := |r| - 1;
    var draw: nat := 0;
    while i > 0
      invariant |r| == |arr| && i < |r|
      invariant multiset(r) == multiset(arr)
    {
      DrawIndex(rand(draw), i);
      var j := (rand(draw) * (i + 1) as real).Floor;
      r := r[i := r[j]][j := r[i]];
      i := i - 1;
      draw := draw + 1;
    }
  }

  /** The cell may take an element of `layer`: free, and sky for the sky
      layer or ground (contour included) for the ground layer. */
  predicate Eligible(p: Point, layer: Layer) {
    !p.occupied &&
    match layer
    case GroundLayer => p.kind == Ground || p.kind == Contour
    case SkyLayer => p.kind == SkyPoint
  }

  predicate EligibleAt(grid: Grid, layer: Layer, x: int, y: int) {
    0 <= y < |grid| && 0 <= x < |grid[y]| && Eligible(grid[y][x], layer)
  }

  /** The first eligible row of column `x`, scanning from the top; `|grid|`
      when the column has none. */
  function FirstFreeRow(grid: Grid, layer: Layer, x: int): (r: int)
    ensures 0 <= r <= |grid|
    ensures r < |grid| ==> EligibleAt(grid, layer, x, r)
    ensures forall y :: 0 <= y < r ==> !EligibleAt(grid, layer, x, y)
  {
    var free := y => EligibleAt(grid, layer, x, y);
    var r := ScanDown(free, 0, |grid|);
    assert r < |grid| ==> free(r);
    forall y | 0 <= y < r
      ensures !EligibleAt(grid, layer, x, y)
    {
      assert !free(y);
    }
    r
  }

  /** Column `x` has no eligible cell. */
  predicate ColumnFull(grid: Grid, layer: Layer, x: int) {
    FirstFreeRow(grid, layer, x) == |grid|
  }

  /** The search loop of `findFreePoint` over the columns `order[i..]`: the
      topmost eligible cell of the first column that has one, and none when
      every one of those columns is full. */
  function SearchColumns(grid: Grid, layer: Layer, order: seq<nat>, i: nat): (r: Option<Point>)
    requires i <= |order|
    decreases |order| - i
    ensures r.None? <==> forall k :: i <= k < |order| ==> ColumnFull(grid, layer, order[k])
    ensures r.Some? ==> exists k ::
      && i <= k < |order|
      && !ColumnFull(grid, layer, order[k])
      && r.value == grid[FirstFreeRow(grid, layer, order[k])][order[k]]
      && forall k' :: i <= k' < k ==> ColumnFull(grid, layer, order[k'])
  {
    if i == |order| then None
    else
      var y := FirstFreeRow(grid, layer, order[i]);
      if y < |grid| then Some(grid[y][order[i]])
      else SearchColumns(grid, layer, order, i + 1)
  }

  /** `findFreePoint`: over the columns in a shuffled order, the topmost
      eligible cell of the first column that has one; none exactly when every
      column is full. */
  method FindFreePoint(grid: Grid, layer: Layer, rand: nat -> Unit) returns (r: Option<Point>)
    requires WideRows(grid)
    ensures r.None? <==> forall x :: 0 <= x < Cols(grid) ==> ColumnFull(grid, layer, x)
    ensures r.Some? ==> exists x ::
      && 0 <= x < Cols(grid) && !ColumnFull(grid, layer, x)
      && r.value == grid[FirstFreeRow(grid, layer, x)][x]
  {
    var order := Shuffle(Range(Cols(grid)), rand);
    forall k | 0 <= k < |order|
      ensures order[k] < Cols(grid)
    {
      assert order[k] in multiset(Range(Cols(grid)));
    }
    forall x | 0 <= x < Cols(grid)
      ensures x in order
    {
      assert Range(Cols(grid))[x] == x;
      assert x in multiset(order);
    }
    r := SearchColumns(grid, layer, order, 0);
    if r.None? {
      forall x | 0 <= x < Cols(grid)
        ensures ColumnFull(grid, layer, x)
      {
        assert x in order;
        var k :| 0 <= k < |order| && order[k] == x;
      }
    }
  }

  // ---------------------------------------------------------------------
  // occupyPoint

  /** `occupyPoint`: the cell at the point's own row and column is marked
      occupied when it exists; every other cell, and every other field, stays
      as it was. */
  function OccupyPoint(grid: Grid, point: Point): (r: Grid)
    ensures |r| == |grid| && forall y :: 0 <= y < |grid| ==> |r[y]| == |grid[y]|
    ensures forall y, x :: 0 <= y < |grid| && 0 <= x < |grid[y]| ==>
      if y == point.yIndex && x == point.xIndex then r[y][x] == grid[y][x].(occupied := true)
      else r[y][x] == grid[y][x]
  {
    if 0 <= point.yIndex < |grid| && 0 <= point.xIndex < |grid[point.yIndex]| then
      var row := grid[point.yIndex];
      grid[point.yIndex := row[point.xIndex := row[point.xIndex].(occupied := true)]]
    else grid
  }

  /** Occupying the cell a search returned means the same search on the
      updated grid never returns that cell again. */
  lemma {:induction false} OccupiedIsNotFoundAgain(grid: Grid, layer: Layer, order: seq<nat>, p: Point)
    requires IndexConsistent(grid)
    requires SearchColumns(grid, layer, order, 0) == Some(p)
    ensures var r := SearchColumns(OccupyPoint(grid, p), layer, order, 0);
            r.Some? ==> r.value.xIndex != p.xIndex || r.value.yIndex != p.yIndex
  {
    var k0 :| 0 <= k0 < |order| && !ColumnFull(grid, layer, order[k0]) &&
      p == grid[FirstFreeRow(grid, layer, order[k0])][order[k0]];
    var px, py := order[k0], FirstFreeRow(grid, layer, order[k0]);
    assert EligibleAt(grid, layer, px, py);
    assert p.xIndex == px && p.yIndex == py;
    var g2: Grid := OccupyPoint(grid, p);
    assert g2[py][px].occupied;
    OccupyKeepsIndices(grid, p);
    var r := SearchColumns(g2, layer, order, 0);
    if r.Some? {
      var k :| 0 <= k < |order| && !ColumnFull(g2, layer, order[k]) &&
        r.value == g2[FirstFreeRow(g2, layer, order[k])][order[k]];
      var x, y := order[k], FirstFreeRow(g2, layer, order[k]);
      assert EligibleAt(g2, layer, x, y);
      assert !g2[y][x].occupied;
    }
  }

  /** Occupying a cell keeps every cell's recorded indices. */
  lemma OccupyKeepsIndices(grid: Grid, p: Point)
    requires IndexConsistent(grid)
    ensures IndexConsistent(OccupyPoint(grid, p))
  {
    var g2: Grid := OccupyPoint(grid, p);
    forall y, x | 0 <= y < |g2| && 0 <= x < |g2[y]|
      ensures g2[y][x].yIndex == y && g2[y][x].xIndex == x
    {
      assert g2[y][x].yIndex == grid[y][x].yIndex && g2[y][x].xIndex == grid[y][x].xIndex;
    }
  }

  // ---------------------------------------------------------------------
  // generateGroundY and getGroundYForX

  /** The hill `generateGroundY` scans: the foreground range, scaled to the
      window it is given. */
  function Hill(w: nat, h: nat): ScaledPath {
    CreateScaledPath(Mountains[ForegroundIndex], w, h)
  }

  predicate HillRow(env: Env, w: nat, h: nat, x: int, y: int) {
    InPath(env, Hill(w, h), x as real, y as real)
  }

  /** The first row of column `x` inside the hill; `h` when there is none. */
  function FirstHillRow(env: Env, w: nat, h: nat, x: int): (top: int)
    ensures 0 <= top <= h
    ensures top < h ==> HillRow(env, w, h, x, top)
    ensures forall y :: 0 <= y < top ==> !HillRow(env, w, h, x, y)
  {
    var inside := y => HillRow(env, w, h, x, y);
    var top := ScanDown(inside, 0, h);
    assert top < h ==> inside(top);
    forall y | 0 <= y < top
      ensures !HillRow(env, w, h, x, y)
    {
      assert !inside(y);
    }
    top
  }

  /** The cached ground of column `x`: when some row of the column is inside
      the hill, the whole row nearest the top that is; otherwise `0.12 * h`. */
  function ColumnGround(env: Env, w: nat, h: nat, x: int): (r: real)
    ensures 0.0 <= r <= h as real
    ensures (forall y :: 0 <= y < h ==> !HillRow(env, w, h, x, y)) ==> r == 0.12 * h as real
    ensures (exists y :: 0 <= y < h && HillRow(env, w, h, x, y)) ==>
      && r == r.Floor as real
      && HillRow(env, w, h, x, r.Floor)
      && forall y :: 0 <= y < r.Floor ==> !HillRow(env, w, h, x, y)
  {
    var top := FirstHillRow(env, w, h, x);
    if top < h then top as real else 0.12 * h as real
  }

  /** `generateGroundY`: without a 2D context the cache is left as it was;
      otherwise it is rebuilt with one entry per window column. */
  function GenerateGroundY(cache: seq<real>, w: nat, h: nat, env: Env): (r: seq<real>)
    ensures !env.hasContext ==> r == cache
    ensures env.hasContext ==> |r| == w && forall x :: 0 <= x < w ==> r[x] == ColumnGround(env, w, h, x)
  {
    if !env.hasContext then cache
    else seq(w, x requires 0 <= x < w => ColumnGround(env, w, h, x))
  }

  /** The hill scanned for the cache is the foreground `getTopPxForeground`
      scans, so for the current window the cache agrees with it in every
      column that meets the hill; elsewhere the cache holds `0.12 * h` where
      `getTopPxForeground` answers 0. */
  lemma {:induction false} CacheAgreesWithForegroundTop(cache: seq<real>, env: Env, x: nat)
    requires env.hasContext && x < env.width
    ensures var r := GenerateGroundY(cache, env.width, env.height, env);
            var top := Bounds.GetTopPxForeground(env, x as real);
      && (Bounds.ForegroundRow(env, x as real, top) ==> r[x] == top as real)
      && (!Bounds.ForegroundRow(env, x as real, top) ==> top == 0 && r[x] == 0.12 * env.height as real)
  {
    var w, h := env.width, env.height;
    var r := GenerateGroundY(cache, w, h, env);
    var top := Bounds.GetTopPxForeground(env, x as real);
    forall y
      ensures HillRow(env, w, h, x, y) <==> Bounds.ForegroundRow(env, x as real, y)
    {
      assert ScaleAll(w, h)[ForegroundIndex] == Hill(w, h);
    }
    var scan := FirstHillRow(env, w, h, x);
    assert r[x] == ColumnGround(env, w, h, x);
    if scan < h {
      assert Bounds.ForegroundRow(env, x as real, scan);
      assert 0 <= top;
      assert top < scan ==> !HillRow(env, w, h, x, top);
      assert top < scan ==> !Bounds.ForegroundRow(env, x as real, top);
      assert !(scan < top);
    } else {
      assert top < h ==> !HillRow(env, w, h, x, top);
    }
  }

  /** `getGroundYForX`: 0 for an empty cache, otherwise the entry of the
      nearest column, clamped to the cache. */
  function GetGroundYForX(cache: seq<real>, leftPx: real): (r: real)
    ensures |cache| == 0 ==> r == 0.0
    ensures |cache| > 0 ==> r == cache[Clamp(Round(leftPx), 0, |cache| - 1)]
    ensures |cache| > 0 ==> r in cache
  {
    if |cache| == 0 then 0.0
    else cache[Min(Max(0, Round(leftPx)), |cache| - 1)]
  }

  /** Reading the cache back at a whole column inside it gives that column's
      entry. */
  lemma GroundYForColumn(cache: seq<real>, x: nat)
    requires x < |cache|
    ensures GetGroundYForX(cache, x as real) == cache[x]
  {
    RoundOfInt(x);
  }
}
